=== FILE: README.md ===
# Video-to-subtitles pipeline: a Dafny model

This project models the core of a small video-processing service. The service takes a video
URL, converts the video to MP3, transcribes the audio and turns the transcript into an SRT
subtitle file. It then notifies Slack and sends an email.

Two parts are modelled:

- **Subtitle generation** (`src/tasks/generateSRT.ts`). This covers the checks on the
  transcription JSON, `isSentenceEnd`, and the greedy single pass that cuts the ordered,
  timed words into cues. A cue closes at a sentence end, at twelve words, or at the last
  word. It also covers `secondsToSrtTime` and the loop that builds the SRT document.
- **The orchestrator** (`src/index.ts`, `processVideoTask.run`). This covers URL validation,
  the strictly sequential child tasks (convert, transcribe, generate SRT), and the Slack and
  email batch. It also covers the fixed failure reasons and the success value. Child tasks
  are not modelled. An environment says what each reports for each payload: it threw,
  finished not ok, or finished ok with an output. The model returns the run's value and the
  list of child tasks it triggered, with their payloads.

Modules, one concept each:

| file | module | what it holds |
|---|---|---|
| `wrappers.dfy` | `Wrappers` | `Option`, `Result` |
| `seqs.dfy` | `Seqs` | small sequence rewriting facts |
| `text.dfy` | `Text` | `endsWith`, `slice(-1)`, `join`, `trim`, `padStart` |
| `decimal.dfy` | `Decimal` | `toString` on whole numbers and its inverse |
| `srt_time.dfy` | `SrtTime` | `secondsToSrtTime` on milliseconds, and a timestamp reader |
| `segmenter.dfy` | `Segmenter` | the segmentation loop, and a greedy reference definition |
| `segment_facts.dfy` | `SegmentFacts` | partition, cue bounds, uniqueness, times, text |
| `srt_format.dfy` | `SrtFormat` | SRT blocks and document, and a reader for them |
| `generate_srt.dfy` | `GenerateSrt` | `generateSrtTask.run` from transcription to document |
| `pipeline.dfy` | `Pipeline` | `processVideoTask.run` |

Each operation has a partner.

- **Segmentation.** The source loop (`SegmentWords`) is proved equal to a greedy reference
  definition (`Segment`). That definition is proved to be the one and only partition of the
  words that obeys the closing rule (`GroupsIsSegmentation`, `SegmentationUnique`).
- **Timestamps and documents.** Each has a reader. Reading a written timestamp gives it back
  (`TimestampRoundTrip`). Reading a written document gives back its cues when no cue text
  contains a line break (`ParseSerialize`); a text with a line break would split its block.
- **The orchestrator.** It is related to declarative descriptions: the stage order, the
  hand-over between stages, the stage whose outcome decides the reason, and the conditions
  under which every stage completes.

## Model

| member | source | states |
|---|---|---|
| `Text.Trim` | src/tasks/generateSRT.ts:87 | `trim`: drops ECMAScript whitespace and line terminators from both ends; its properties are the three rows below |
| `Text.TrimCuts` | src/tasks/generateSRT.ts:87 | `trim` returns a contiguous slice of its input; everything cut from either end is whitespace |
| `Text.TrimEdges` | src/tasks/generateSRT.ts:87 | a trimmed string starts and ends with a non-whitespace character, or is empty |
| `Text.TrimIdempotent` | src/tasks/generateSRT.ts:87 | trimming twice is the same as trimming once |
| `Text.Join` | src/tasks/generateSRT.ts:81 | joining one element gives that element; the join is never shorter than its first element |
| `Text.JoinAppend` | src/tasks/generateSRT.ts:81 | joining two non-empty lists is joining each, with the separator between |
| `Text.SliceLast` | src/tasks/generateSRT.ts:22 | `slice(-1)` is the last character as a string, or the empty string for the empty word |
| `Text.PadZeros` | src/tasks/generateSRT.ts:12-15 | `padStart` with `"0"` keeps the input as a suffix and adds only zeros; a longer input is not cut |
| `Decimal.NatToString` | src/tasks/generateSRT.ts:12-15 | `toString` of a whole number is a non-empty digit string, with no leading zero unless the number is zero |
| `Decimal.NatToStringRoundTrip` | src/tasks/generateSRT.ts:12-15 | reading the decimal rendering gives the number back |
| `Decimal.DigitsInjective` | src/tasks/generateSRT.ts:12-15 | a padded field of fixed width has exactly one spelling per value |
| `SrtTime.TimeFields` | src/tasks/generateSRT.ts:7-9 | hours and minutes from whole seconds equal hours and minutes from milliseconds |
| `SrtTime.TimeDecomposition` | src/tasks/generateSRT.ts:7-10 | the four fields put back together give the original time |
| `SrtTime.Render` | src/tasks/generateSRT.ts:12-17 | the layout `HH:MM:SS,mmm` shows each field's value; it is 12 characters exactly when hours are below 100, and from 100 hours on the hours field is the plain decimal number, with no padding |
| `SrtTime.FormatTimestamp` | src/tasks/generateSRT.ts:6-17 | the timestamp shows `t` split into hours, minutes below 60, seconds below 60 and milliseconds below 1000; the hours take two digits below 100 hours and exactly their decimal width from then on |
| `SrtTime.HoursWidth` | src/tasks/generateSRT.ts:12 | the hours field grows beyond two digits exactly from 100 hours on |
| `SrtTime.ParseTimestamp` | src/tasks/generateSRT.ts:17 | a timestamp is read only if the separators `:`, `:`, `,` sit where the format puts them |
| `SrtTime.TimestampRoundTrip` | src/tasks/generateSRT.ts:6-17 | reading a formatted timestamp gives back its millisecond count, so no two times print alike |
| `SrtTime.TimestampCharacters` | src/tasks/generateSRT.ts:17 | a timestamp contains no space and no line break |
| `SrtTime.ShownUnique` | src/tasks/generateSRT.ts:12-17 | two timestamps of equal length that show the same fields are equal |
| `SrtTime.FormatZero` | src/tasks/generateSRT.ts:6-17 | zero prints as `00:00:00,000` |
| `SrtTime.FormatHourMinuteSecond` | src/tasks/generateSRT.ts:6-17 | 3661.25 s prints as `01:01:01,250` |
| `SrtTime.FormatJustUnderMinute` | src/tasks/generateSRT.ts:6-17 | 59.999 s prints as `00:00:59,999`: milliseconds are cut, not rounded up |
| `SrtTime.FormatHundredHours` | src/tasks/generateSRT.ts:7-17 | 360000 s prints as `100:00:00,000`: the hours field widens to three digits without extra padding |
| `Segmenter.IsSentenceEnd` | src/tasks/generateSRT.ts:20-24 | `isSentenceEnd`: the word is non-empty and its last character is `.`, `?` or `!`; the next row proves this is the source's `slice(-1)` test |
| `Segmenter.SentenceEndBySlice` | src/tasks/generateSRT.ts:20-24 | a word ends a sentence iff it is non-empty and its last character is `.`, `?` or `!` |
| `Segmenter.CueEnd` | src/tasks/generateSRT.ts:72-78 | a cue that begins at word `first` closes at the first word satisfying the closing rule, within twelve words |
| `Segmenter.MakeCue` | src/tasks/generateSRT.ts:79-88 | a closed run of words becomes a cue starting at its first word's start, ending at its last word's end, showing the display forms joined by single spaces and trimmed |
| `Segmenter.Segment` | src/tasks/generateSRT.ts:65-96 | the cues the loop produces, defined as the cue of each greedy run; `SegmentWords` proves the loop computes it and `SegmentationUnique` characterises it |
| `Segmenter.GroupsPartition` | src/tasks/generateSRT.ts:70-96 | the cue word runs, concatenated, are exactly the input words; each holds 1 to 12 words |
| `Segmenter.LoopSegments` | src/tasks/generateSRT.ts:70-96 | from any state that tracks the reference, the rest of the loop yields the reference cues |
| `Segmenter.SegmentWords` | src/tasks/generateSRT.ts:65-96 | the source loop computes the reference segmentation |
| `SegmentFacts.GroupsIsSegmentation` | src/tasks/generateSRT.ts:72-93 | the greedy runs partition the words; no run has a sentence end before its last word; each run but the final one closes on a sentence end or at twelve words |
| `SegmentFacts.SegmentationUnique` | src/tasks/generateSRT.ts:70-96 | any partition obeying that closing rule is the greedy one |
| `SegmentFacts.SegmentCount` | src/tasks/generateSRT.ts:68-96 | `ceil(n/12) <= cues <= n`, and no cues exactly when no words |
| `SegmentFacts.CueWords` | src/tasks/generateSRT.ts:67-93 | cue `k` covers a run of 1 to 12 consecutive words; its start is the run's first word's start and its end the run's last word's end |
| `SegmentFacts.CueStartsSorted` | src/tasks/generateSRT.ts:67-93 | words sorted by start give cues sorted by start |
| `SegmentFacts.CueStartBeforeEnd` | src/tasks/generateSRT.ts:79-80 | sorted, well-timed words give cues that end no earlier than they start |
| `SegmentFacts.SegmentText` | src/tasks/generateSRT.ts:81-87 | for words whose display forms are non-empty and have no edge whitespace, the cue texts joined by single spaces reproduce the display forms joined by single spaces |
| `SegmentFacts.CueTextsNoNewline` | src/tasks/generateSRT.ts:81-87 | no cue text has a line break unless a display form has one |
| `SrtFormat.Block` | src/tasks/generateSRT.ts:100-103 | one block: the 1-based index, a line break, the two timestamps around ` --> `, a line break, the text, then two line breaks |
| `SrtFormat.Serialize` | src/tasks/generateSRT.ts:99-104 | the document: the blocks of all cues, numbered from 1 in cue order; `ParseSerialize` proves it reads back when no cue text contains a line break |
| `SrtFormat.TimeLineOf` | src/tasks/generateSRT.ts:102 | the timing line `start --> end` has no line break and reads back as the cue's times |
| `SrtFormat.IndexLine` | src/tasks/generateSRT.ts:101 | the index line is a non-empty digit string, with no line break, denoting the index |
| `SrtFormat.ParseBlockOf` | src/tasks/generateSRT.ts:100-103 | one block `i\ntiming\ntext\n\n` whose text contains no line break reads back as its cue and leaves what follows |
| `SrtFormat.ParseSerialize` | src/tasks/generateSRT.ts:99-104 | when no cue text has a line break, reading the document gives back exactly the cues, in order |
| `SrtFormat.SerializeEmpty` | src/tasks/generateSRT.ts:99-104 | the document is empty exactly when there are no cues |
| `SrtFormat.SerializeSnoc` | src/tasks/generateSRT.ts:100-104 | appending a cue appends exactly its block, numbered after the others |
| `GenerateSrt.GenerateSrt` | src/tasks/generateSRT.ts:47-104 | the run after the fetch: the error of the first failing transcription check, or the serialised segmentation of the words; its properties are the rows below |
| `GenerateSrt.TranscriptWords` | src/tasks/generateSRT.ts:47-61 | words are returned only when there is at least one |
| `GenerateSrt.GenerateSrtErrors` | src/tasks/generateSRT.ts:47-61 | each of the three errors is raised exactly in its case: channels absent or empty; then alternatives absent or empty; then words absent or empty |
| `GenerateSrt.GenerateSrtSuccess` | src/tasks/generateSRT.ts:47-104 | `generateSrtTask` yields a document exactly when the first alternative of the first channel has words; the document serialises their segmentation |
| `GenerateSrt.GenerateSrtRoundTrip` | src/tasks/generateSRT.ts:47-104 | the document holds at least one block and, when no display form contains a line break, reads back as the segmentation of the words |
| `GenerateSrt.BuildSrt` | src/tasks/generateSRT.ts:99-104 | the `forEach` loop builds the serialised document |
| `GenerateSrt.Run` | src/tasks/generateSRT.ts:47-104 | the body of `generateSrtTask`, with its loops, yields the modelled result |
| `Pipeline.HasVideoExtension` | src/index.ts:29 | the URL ends in `.mp4` or `.webm`, case-sensitively |
| `Pipeline.ProcessVideo` | src/index.ts:18-93 | `processVideoTask.run`: the returned value and the child tasks triggered, with their payloads; its properties are the rows below |
| `Pipeline.Validation` | src/index.ts:23-32 | an empty URL, then a URL not ending in `.mp4` or `.webm`, each fails with its own reason; nothing is triggered exactly then |
| `Pipeline.UpperCaseExtension` | src/index.ts:29-32 | the extension check is case-sensitive: `clip.MP4` is rejected |
| `Pipeline.StagesInOrder` | src/index.ts:36-76 | stages run in the fixed order; a run triggers 0, 1, 2, 3 or 5 of them; each stage is triggered only after the previous one handed over, and receives that stage's output; a run that stops after conversion, transcription or subtitles stops at a stage that does not hand over |
| `Pipeline.ConversionFailures` | src/index.ts:36-50 | a valid URL is always converted; a throwing conversion gives the download error, one that is not ok or yields no or an empty MP3 file gives `Failed to convert video to MP3`, and nothing else is triggered |
| `Pipeline.TranscriptionFailures` | src/index.ts:54-58 | after a conversion that yields an MP3 file, the transcription is triggered with that file; its throw gives the download error and its failure `Failed to transcribe audio`, and nothing else is triggered |
| `Pipeline.SubtitleFailures` | src/index.ts:64-76 | after a transcription, the subtitles are generated from its URL; their throw gives the download error and their failure `Failed to generate SRT`, with nothing else triggered; a throwing notification batch gives the download error |
| `Pipeline.NotificationPayloads` | src/index.ts:73-76 | the Slack notification carries the payload's tenant and project and the MP3 file that was transcribed; the email carries the same tenant, project and MP3 file and the subtitle URL Slack receives |
| `Pipeline.NotifiesOnlyAfterSubtitles` | src/index.ts:64-76 | both notifications are sent exactly when the subtitles were generated; an SRT failure sends neither |
| `Pipeline.LastStageDecides` | src/index.ts:39-88 | a failed run's reason is the one its last triggered stage gives; success exactly when all five stages ran and both notification runs were ok |
| `Pipeline.DownloadErrorIff` | src/index.ts:36-92 | the download error is returned exactly when the last triggered stage threw |
| `Pipeline.SlackBeforeEmail` | src/index.ts:78-86 | when both notifications fail, Slack is reported; when only the email fails, the email is |
| `Pipeline.SuccessIff` | src/index.ts:39-88 | when every stage completes, the run succeeds with the MP3 file, duration and transcription; every success is such a run |

## Left out

- Times are whole milliseconds (`nat`), not floating-point seconds. The source computes
  milliseconds as `Math.floor((seconds - Math.floor(seconds)) * 1000)` in binary floating
  point, so it can print one millisecond less than the decimal value suggests. For example,
  1.001 is stored slightly below 1.001, so the product falls just under 1 and floors to 0.
  The model prints the exact millisecond count. Negative and non-finite times are not
  modelled.
- Fetching the transcription JSON and its "Failed to fetch transcription JSON" error are left
  to the caller. So are the S3 upload and the returned `srtUrl`. `GenerateSrt` models the
  task from the parsed JSON to the document.
- A missing `punctuated_word` (JavaScript `undefined`, which `join` renders as an empty
  string) is not modelled; every word has a display form.
- Cues are not guaranteed to be disjoint in time, and the model does not claim it. The code
  takes start and end times from the words as given. `CueStartsSorted` and
  `CueStartBeforeEnd` state what follows from sorted, well-timed words.
- The orchestrator's child tasks (conversion, transcription, Slack, email) are parameters,
  not models. Their internals, retries and the runtime's scheduling are left out. The batch
  is one call that reports both runs; concurrency inside it is not modelled.
- The run's returned value uses the code's shape: a reason string, with no stage tag. The
  whole transcription output is represented by its `transcriptionUrl`. Logging,
  `new Date()`, the `zod` schema and the `typeof videoUrl !== "string"` check are left out;
  the schema already makes the URL a string.
- The five-minute `maxDuration` limit is enforced by the trigger.dev runtime, not by this code, and
  is not modelled.
- The duration returned by the conversion is passed through as an `int` and never
  inspected.
- `Text.SliceLast`: strings are sequences of Unicode scalar values here, while JavaScript strings
  are sequences of UTF-16 code units. For a word ending in a character outside the Basic
  Multilingual Plane, `slice(-1)` gives a lone low surrogate where `SliceLast` gives the
  whole character. Neither is `.`, `?` or `!`, so `isSentenceEnd` agrees; `trim`, `endsWith`
  and `padStart` on the strings involved give the same results either way.
- The SRT reader (`ParseSrt`, `ParseTimestamp`) is not part of the source. It is the partner
  against which serialisation is proved faithful.

=== FILE: decimal.dfy ===
/** Decimal rendering of non-negative integers (`Number.prototype.toString()` on a whole
    number) and its inverse, reading a string of decimal digits back. */
module Decimal {

  predicate IsDigit(c: char)
  {
    '0' <= c <= '9'
  }

  predicate AllDigits(s: string)
  {
    forall i :: 0 <= i < |s| ==> IsDigit(s[i])
  }

  function DigitChar(d: nat): (c: char)
    requires d < 10
    ensures IsDigit(c)
  {
    ['0', '1', '2', '3', '4', '5', '6', '7', '8', '9'][d]
  }

  function DigitValue(c: char): (d: nat)
    requires IsDigit(c)
    ensures d < 10
  {
    (c as int - '0' as int) as nat
  }

  /** The number a string of decimal digits denotes; leading zeros are allowed. */
  function DigitsValue(s: string): nat
    requires AllDigits(s)
  {
    if |s| == 0 then 0 else 10 * DigitsValue(s[..|s| - 1]) + DigitValue(s[|s| - 1])
  }

  /** The shortest decimal rendering of `n`: digits only, never empty, and no leading zero
      unless `n` itself is zero. */
  function NatToString(n: nat): (s: string)
    ensures |s| > 0 && AllDigits(s)
    ensures s[0] == '0' ==> n == 0
  {
    if n < 10 then [DigitChar(n)] else NatToString(n / 10) + [DigitChar(n % 10)]
  }

  /** Reading a rendered number gives the number back. */
  lemma {:induction false} NatToStringRoundTrip(n: nat)
    ensures DigitsValue(NatToString(n)) == n
  {
    var s := NatToString(n);
    if n < 10 {
      assert s[..0] == [];
    } else {
      assert s[..|s| - 1] == NatToString(n / 10);
      NatToStringRoundTrip(n / 10);
    }
  }

  /** Numbers below 10^k take at most k digits: the bounds the time fields rely on. */
  lemma NatToStringLength(n: nat)
    ensures n < 10 ==> |NatToString(n)| == 1
    ensures n < 100 ==> |NatToString(n)| <= 2
    ensures n < 1000 ==> |NatToString(n)| <= 3
  {
  }

  /** Leading zeros do not change the value of a digit string. */
  lemma {:induction false} LeadingZerosValue(z: string, s: string)
    requires AllDigits(s)
    requires forall i :: 0 <= i < |z| ==> z[i] == '0'
    ensures AllDigits(z + s)
    ensures DigitsValue(z + s) == DigitsValue(s)
  {
    if |s| == 0 {
      assert z + s == z;
      AllZerosValue(z);
    } else {
      var t := s[..|s| - 1];
      assert (z + s)[..|z + s| - 1] == z + t;
      LeadingZerosValue(z, t);
    }
  }

  lemma {:induction false} AllZerosValue(z: string)
    requires forall i :: 0 <= i < |z| ==> z[i] == '0'
    ensures AllDigits(z) && DigitsValue(z) == 0
  {
    if |z| > 0 {
      AllZerosValue(z[..|z| - 1]);
    }
  }

  /** Two digit strings of the same length that denote the same number are the same string:
      a fixed-width field has exactly one spelling. */
  lemma {:induction false} DigitsInjective(a: string, b: string)
    requires AllDigits(a) && AllDigits(b) && |a| == |b|
    requires DigitsValue(a) == DigitsValue(b)
    ensures a == b
  {
    if |a| > 0 {
      var n := |a| - 1;
      var x, y := DigitValue(a[n]), DigitValue(b[n]);
      assert DigitsValue(a[..n]) == DigitsValue(b[..n]) && x == y by {
        var p, q := DigitsValue(a[..n]), DigitsValue(b[..n]);
        assert 10 * p + x == 10 * q + y;
      }
      DigitsInjective(a[..n], b[..n]);
      assert a[n] == b[n];
      assert a == a[..n] + [a[n]];
      assert b == b[..n] + [b[n]];
    }
  }
}

=== FILE: generate_srt.dfy ===
/** `generateSrtTask.run` (src/tasks/generateSRT.ts) after the transcription JSON has been
    fetched: pick the words of the first alternative of the first channel, segment them into
    cues and build the SRT document. Fetching the JSON and uploading the document are left to
    the caller. */
module GenerateSrt {
  import opened Wrappers
  import opened Segmenter
  import opened SegmentFacts
  import opened SrtFormat

  /** The parts of a Deepgram-style transcription `generateSrtTask` reads; every level may be absent. */
  datatype Alternative = Alternative(words: Option<seq<Word>>)
  datatype Channel = Channel(alternatives: Option<seq<Alternative>>)
  datatype Results = Results(channels: Option<seq<Channel>>)
  datatype Transcription = Transcription(results: Option<Results>)

  const NoChannels: string := "No channels in transcription data"
  const NoAlternatives: string := "No alternatives in transcription data"
  const NoWords: string := "No words in transcription"

  /** `transcription?.results?.channels`. */
  function Channels(t: Transcription): Option<seq<Channel>>
  {
    if t.results.Some? then t.results.value.channels else None
  }

  /** The words `generateSrtTask` segments, or the error it throws: no channels (absent or empty), no
      alternatives on the first channel (absent or empty), or no words on the first
      alternative (`alternative.words || []` is empty). */
  function TranscriptWords(t: Transcription): (r: Result<seq<Word>, string>)
    ensures r.Success? ==> |r.value| > 0
  {
    var channels := Channels(t);
    if channels.None? || |channels.value| == 0 then Failure(NoChannels)
    else
      var alternatives := channels.value[0].alternatives;
      if alternatives.None? || |alternatives.value| == 0 then Failure(NoAlternatives)
      else
        var words := if alternatives.value[0].words.Some? then alternatives.value[0].words.value else [];
        if |words| == 0 then Failure(NoWords) else Success(words)
  }

  /** The SRT document for a transcription, or the error `generateSrtTask` throws. */
  function GenerateSrt(t: Transcription): Result<string, string>
  {
    match TranscriptWords(t)
    case Failure(e) => Failure(e)
    case Success(words) => Success(Serialize(Segment(words)))
  }

  /** Which error is thrown, checked in order: channels, then alternatives, then words. */
  lemma GenerateSrtErrors(t: Transcription)
    ensures GenerateSrt(t) == Failure(NoChannels)
        <==> Channels(t).None? || |Channels(t).value| == 0
    ensures GenerateSrt(t) == Failure(NoAlternatives)
        <==> && Channels(t).Some? && |Channels(t).value| > 0
             && (Channels(t).value[0].alternatives.None? || |Channels(t).value[0].alternatives.value| == 0)
    ensures GenerateSrt(t) == Failure(NoWords)
        <==> && Channels(t).Some? && |Channels(t).value| > 0
             && Channels(t).value[0].alternatives.Some? && |Channels(t).value[0].alternatives.value| > 0
             && (Channels(t).value[0].alternatives.value[0].words.None?
                 || |Channels(t).value[0].alternatives.value[0].words.value| == 0)
  {
  }

  /** `generateSrtTask` succeeds exactly when the first alternative of the first channel has words,
      and the document is then the serialised segmentation of those words. */
  lemma GenerateSrtSuccess(t: Transcription)
    ensures GenerateSrt(t).Success?
        <==> && Channels(t).Some? && |Channels(t).value| > 0
             && Channels(t).value[0].alternatives.Some? && |Channels(t).value[0].alternatives.value| > 0
             && Channels(t).value[0].alternatives.value[0].words.Some?
             && |Channels(t).value[0].alternatives.value[0].words.value| > 0
    ensures GenerateSrt(t).Success? ==>
              GenerateSrt(t).value
              == Serialize(Segment(Channels(t).value[0].alternatives.value[0].words.value))
  {
    match TranscriptWords(t)
    case Failure(_) =>
    case Success(words) =>
      assert GenerateSrt(t) == Success(Serialize(Segment(words)));
  }

  /** The document `generateSrtTask` writes reads back as the segmentation of the transcript's words,
      provided no display form contains a line break; and it holds at least one block. */
  lemma GenerateSrtRoundTrip(t: Transcription)
    requires TranscriptWords(t).Success?
    requires forall i :: 0 <= i < |TranscriptWords(t).value| ==> '\n' !in TranscriptWords(t).value[i].punctuated
    ensures GenerateSrt(t).Success?
    ensures ParseSrt(GenerateSrt(t).value) == Some(Segment(TranscriptWords(t).value))
    ensures |Segment(TranscriptWords(t).value)| > 0
  {
    var words := TranscriptWords(t).value;
    CueTextsNoNewline(words);
    ParseSerialize(Segment(words));
    SegmentCount(words);
  }

  /** The document-building loop of `generateSrtTask.run`: `srtContent` grows by one block per
      cue, numbered `index + 1`. */
  method BuildSrt(cues: seq<Cue>) returns (srtContent: string)
    ensures srtContent == Serialize(cues)
  {
    srtContent := "";
    for index := 0 to |cues|
      invariant srtContent == Serialize(cues[..index])
    {
      SerializePrefix(cues, index);
      srtContent := srtContent + Block(index + 1, cues[index]);
    }
    assert cues[..|cues|] == cues;
  }

  /** `generateSrtTask.run` from the fetched transcription to the SRT document, segmenting
      and serialising with the source's loops. */
  method Run(t: Transcription) returns (r: Result<string, string>)
    ensures r == GenerateSrt(t)
  {
    var words := TranscriptWords(t);
    if words.Failure? {
      return Failure(words.error);
    }
    var cues := SegmentWords(words.value);
    var srtContent := BuildSrt(cues);
    return Success(srtContent);
  }
}

=== FILE: pipeline.dfy ===
/** `processVideoTask.run` (src/index.ts): validate the video URL, then run the conversion,
    transcription and subtitle stages one after another, then notify Slack and send the email
    in one batch. The child tasks are not modelled; the environment says what each of them
    reports, and the model records which of them were triggered, with what payload. */
module Pipeline {
  import opened Wrappers
  import opened Text

  /** The payload of `processVideoTask`. */
  datatype Payload = Payload(videoUrl: string, tenantId: string, projectId: string)

  /** What `convertToMp3Task` outputs when its run is ok; `mp3File` may be missing or empty. */
  datatype ConvertOutput = ConvertOutput(mp3File: Option<string>, duration: int)

  /** A triggered child task: it throws, finishes not ok, or finishes ok with an output. */
  datatype Outcome<T> = Threw | NotOk | Ok(output: T)

  /** The payloads of the two notifications sent in one batch. */
  datatype SlackPayload = SlackPayload(
    tenantId: string, projectId: string, transcriptionJsonUrl: string, srtUrl: string, mp3Url: string)
  datatype EmailPayload = EmailPayload(tenantId: string, projectId: string, mp3Url: string, srtUrl: string)

  /** The batch either throws or reports whether each of its two runs was ok. */
  datatype BatchOutcome = BatchThrew | Runs(slackOk: bool, emailOk: bool)

  /** What each child task reports for a given payload. `transcribe` yields the transcription
      URL and `generateSrt` the subtitle URL. */
  datatype Env = Env(
    convert: string -> Outcome<ConvertOutput>,
    transcribe: string -> Outcome<string>,
    generateSrt: string -> Outcome<string>,
    notify: (SlackPayload, EmailPayload) -> BatchOutcome)

  /** One child task triggered by the run, with its payload. */
  datatype Invocation =
    | ConvertToMp3(videoUrl: string)
    | TranscribeAudio(audioUrl: string)
    | GenerateSubtitles(transcriptionUrl: string)
    | NotifySlack(slack: SlackPayload)
    | SendEmail(email: EmailPayload)

  /** The value the run returns. */
  datatype Status =
    | Failed(reason: string)
    | Succeeded(mp3File: string, duration: int, transcriptionUrl: string)

  /** A run: its returned value and the child tasks it triggered, in order. */
  datatype Run = Run(status: Status, trace: seq<Invocation>)

  const NoVideoUrl: string := "No valid videoUrl provided"
  const InvalidFormat: string := "Invalid video format"
  const ConvertFailed: string := "Failed to convert video to MP3"
  const TranscribeFailed: string := "Failed to transcribe audio"
  const SrtFailed: string := "Failed to generate SRT"
  const SlackFailed: string := "Failed to notify Slack"
  const EmailFailed: string := "Failed to send email"
  const DownloadError: string := "Error during video download"

  /** The accepted video formats: the URL must end in `.mp4` or `.webm`, case-sensitively. */
  predicate HasVideoExtension(url: string)
  {
    EndsWith(url, ".mp4") || EndsWith(url, ".webm")
  }

  /** The batch of notifications, sent once the subtitles exist. */
  function Notify(p: Payload, env: Env, mp3File: string, duration: int, transcriptionUrl: string,
                  srtUrl: string, trace: seq<Invocation>): Run
  {
    var slack := SlackPayload(p.tenantId, p.projectId, transcriptionUrl, srtUrl, mp3File);
    var email := EmailPayload(p.tenantId, p.projectId, mp3File, srtUrl);
    var notified := trace + [NotifySlack(slack), SendEmail(email)];
    match env.notify(slack, email)
    case BatchThrew => Run(Failed(DownloadError), notified)
    case Runs(slackOk, emailOk) =>
      if !slackOk then Run(Failed(SlackFailed), notified)
      else if !emailOk then Run(Failed(EmailFailed), notified)
      else Run(Succeeded(mp3File, duration, transcriptionUrl), notified)
  }

  /** The stages after the conversion: transcription, subtitles, notifications. */
  function AfterConvert(p: Payload, env: Env, mp3File: string, duration: int): Run
  {
    var transcribing := [ConvertToMp3(p.videoUrl), TranscribeAudio(mp3File)];
    match env.transcribe(mp3File)
    case Threw => Run(Failed(DownloadError), transcribing)
    case NotOk => Run(Failed(TranscribeFailed), transcribing)
    case Ok(transcriptionUrl) =>
      var subtitling := transcribing + [GenerateSubtitles(transcriptionUrl)];
      match env.generateSrt(transcriptionUrl)
      case Threw => Run(Failed(DownloadError), subtitling)
      case NotOk => Run(Failed(SrtFailed), subtitling)
      case Ok(srtUrl) => Notify(p, env, mp3File, duration, transcriptionUrl, srtUrl, subtitling)
  }

  /** `processVideoTask.run`. */
  function ProcessVideo(p: Payload, env: Env): Run
  {
    if p.videoUrl == "" then Run(Failed(NoVideoUrl), [])
    else if !HasVideoExtension(p.videoUrl) then Run(Failed(InvalidFormat), [])
    else
      match env.convert(p.videoUrl)
      case Threw => Run(Failed(DownloadError), [ConvertToMp3(p.videoUrl)])
      case NotOk => Run(Failed(ConvertFailed), [ConvertToMp3(p.videoUrl)])
      case Ok(out) =>
        if out.mp3File.None? || out.mp3File.value == "" then Run(Failed(ConvertFailed), [ConvertToMp3(p.videoUrl)])
        else AfterConvert(p, env, out.mp3File.value, out.duration)
  }

  /** The stages, in the order the run triggers them. */
  datatype Stage = ConvertStage | TranscribeStage | SrtStage | SlackStage | EmailStage

  function StageOf(inv: Invocation): Stage
  {
    match inv
    case ConvertToMp3(_) => ConvertStage
    case TranscribeAudio(_) => TranscribeStage
    case GenerateSubtitles(_) => SrtStage
    case NotifySlack(_) => SlackStage
    case SendEmail(_) => EmailStage
  }

  const StageOrder: seq<Stage> := [ConvertStage, TranscribeStage, SrtStage, SlackStage, EmailStage]

  /** The stage `inv` reported success, and `next` is the stage it hands its output to: the
      MP3 file to the transcription, the transcription URL to the subtitles, the subtitle and
      transcription URLs to Slack, and the same MP3 and subtitle URLs to the email. */
  predicate HandsOver(env: Env, inv: Invocation, next: Invocation)
  {
    match inv
    case ConvertToMp3(url) =>
      && env.convert(url).Ok? && env.convert(url).output.mp3File.Some?
      && env.convert(url).output.mp3File.value != ""
      && next == TranscribeAudio(env.convert(url).output.mp3File.value)
    case TranscribeAudio(audio) =>
      env.transcribe(audio).Ok? && next == GenerateSubtitles(env.transcribe(audio).output)
    case GenerateSubtitles(transcriptionUrl) =>
      && env.generateSrt(transcriptionUrl).Ok? && next.NotifySlack?
      && next.slack.transcriptionJsonUrl == transcriptionUrl
      && next.slack.srtUrl == env.generateSrt(transcriptionUrl).output
    case NotifySlack(slack) =>
      next == SendEmail(EmailPayload(slack.tenantId, slack.projectId, slack.mp3Url, slack.srtUrl))
    case SendEmail(_) => false
  }

  /** What the batch reported, when `t` ends with the two notifications. */
  function BatchOf(env: Env, t: seq<Invocation>): Option<BatchOutcome>
  {
    if |t| >= 2 && t[|t| - 2].NotifySlack? && t[|t| - 1].SendEmail?
    then Some(env.notify(t[|t| - 2].slack, t[|t| - 1].email))
    else None
  }

  /** The last stage of the non-empty trace `t` threw: the child task, or the batch. */
  predicate LastThrew(env: Env, t: seq<Invocation>)
    requires |t| > 0
  {
    match t[|t| - 1]
    case ConvertToMp3(url) => env.convert(url).Threw?
    case TranscribeAudio(audio) => env.transcribe(audio).Threw?
    case GenerateSubtitles(transcriptionUrl) => env.generateSrt(transcriptionUrl).Threw?
    case NotifySlack(_) => false
    case SendEmail(_) => BatchOf(env, t) == Some(BatchThrew)
  }

  /** The reason a run gives when the last stage of `t` did not hand over: a throw, or that
      stage's own failure, Slack before the email. */
  function FailureOf(env: Env, t: seq<Invocation>): string
    requires |t| > 0
  {
    if LastThrew(env, t) then DownloadError
    else
      match t[|t| - 1]
      case ConvertToMp3(_) => ConvertFailed
      case TranscribeAudio(_) => TranscribeFailed
      case GenerateSubtitles(_) => SrtFailed
      case NotifySlack(_) => SlackFailed
      case SendEmail(_) =>
        if BatchOf(env, t).Some? && BatchOf(env, t).value.Runs? && !BatchOf(env, t).value.slackOk
        then SlackFailed else EmailFailed
  }

  /** The URL passes both checks and the conversion reports ok with the non-empty MP3 file
      `mp3File`. */
  predicate Converts(p: Payload, env: Env, mp3File: string, duration: int)
  {
    && p.videoUrl != "" && HasVideoExtension(p.videoUrl)
    && env.convert(p.videoUrl) == Ok(ConvertOutput(Some(mp3File), duration)) && mp3File != ""
  }

  /** Every stage of a run completes in the sense of the source: the URL is valid, the
      conversion yields a non-empty MP3 file, and the transcription, the subtitles and both
      notifications report ok. */
  predicate Completes(p: Payload, env: Env, mp3File: string, duration: int, transcriptionUrl: string,
                      srtUrl: string)
  {
    && Converts(p, env, mp3File, duration)
    && env.transcribe(mp3File) == Ok(transcriptionUrl)
    && env.generateSrt(transcriptionUrl) == Ok(srtUrl)
    && env.notify(SlackPayload(p.tenantId, p.projectId, transcriptionUrl, srtUrl, mp3File),
                  EmailPayload(p.tenantId, p.projectId, mp3File, srtUrl)) == Runs(true, true)
  }

  /** The URL checks come first and trigger nothing: an empty URL, then a URL without a
      `.mp4` or `.webm` ending, each with its own reason. */
  lemma Validation(p: Payload, env: Env)
    ensures ProcessVideo(p, env).status == Failed(NoVideoUrl) <==> p.videoUrl == ""
    ensures ProcessVideo(p, env).status == Failed(InvalidFormat)
        <==> p.videoUrl != "" && !HasVideoExtension(p.videoUrl)
    ensures ProcessVideo(p, env).trace == [] <==> p.videoUrl == "" || !HasVideoExtension(p.videoUrl)
  {
  }

  /** The extension check is case-sensitive: `clip.MP4` is rejected. */
  lemma UpperCaseExtension(env: Env)
    ensures ProcessVideo(Payload("clip.MP4", "t", "p"), env).status == Failed(InvalidFormat)
  {
    assert !EndsWith("clip.MP4", ".mp4") by { assert "clip.MP4"[4..] != ".mp4" by { assert "clip.MP4"[4..][1] == 'M'; } }
    assert !EndsWith("clip.MP4", ".webm") by { assert "clip.MP4"[3..] != ".webm" by { assert "clip.MP4"[3..][0] == 'p'; } }
  }

  /** The stages run in the fixed order conversion, transcription, subtitles, Slack, email.
      Each stage receives what the previous one produced, and the first receives the
      payload's URL. A run goes on exactly as long as its stages hand over: it stops after the
      first of conversion, transcription and subtitles that does not, and the two
      notifications are always triggered together. */
  lemma StagesInOrder(p: Payload, env: Env)
    ensures var t := ProcessVideo(p, env).trace;
      && |t| in {0, 1, 2, 3, 5}
      && (forall i :: 0 <= i < |t| ==> StageOf(t[i]) == StageOrder[i])
      && (|t| > 0 ==> t[0] == ConvertToMp3(p.videoUrl))
      && (forall i :: 0 <= i < |t| - 1 ==> HandsOver(env, t[i], t[i + 1]))
      && (|t| in {1, 2, 3} ==> forall next {:trigger HandsOver(env, t[|t| - 1], next)} :: !HandsOver(env, t[|t| - 1], next))
  {
  }

  /** A valid URL is always converted, and a failing conversion decides the reason: a throw
      gives the download error, a run that is not ok or yields no MP3 file gives the
      conversion failure. */
  lemma ConversionFailures(p: Payload, env: Env)
    ensures var r := ProcessVideo(p, env);
      && (p.videoUrl != "" && HasVideoExtension(p.videoUrl) ==> |r.trace| > 0)
      && (p.videoUrl != "" && HasVideoExtension(p.videoUrl) && env.convert(p.videoUrl).Threw?
          ==> r == Run(Failed(DownloadError), [ConvertToMp3(p.videoUrl)]))
      && (p.videoUrl != "" && HasVideoExtension(p.videoUrl) && env.convert(p.videoUrl).NotOk?
          ==> r == Run(Failed(ConvertFailed), [ConvertToMp3(p.videoUrl)]))
      && (&& p.videoUrl != "" && HasVideoExtension(p.videoUrl) && env.convert(p.videoUrl).Ok?
          && (env.convert(p.videoUrl).output.mp3File in {None, Some("")})
          ==> r == Run(Failed(ConvertFailed), [ConvertToMp3(p.videoUrl)]))
  {
  }

  /** Once the conversion yields an MP3 file, the transcription is triggered with it, and its
      failure decides the reason: a throw gives the download error, a run that is not ok the
      transcription failure. */
  lemma TranscriptionFailures(p: Payload, env: Env, mp3File: string, duration: int)
    ensures Converts(p, env, mp3File, duration) && env.transcribe(mp3File).Threw?
        ==> ProcessVideo(p, env)
            == Run(Failed(DownloadError), [ConvertToMp3(p.videoUrl), TranscribeAudio(mp3File)])
    ensures Converts(p, env, mp3File, duration) && env.transcribe(mp3File).NotOk?
        ==> ProcessVideo(p, env)
            == Run(Failed(TranscribeFailed), [ConvertToMp3(p.videoUrl), TranscribeAudio(mp3File)])
  {
  }

  /** Once the transcription is made, the subtitles are generated from it, and their failure
      decides the reason: a throw gives the download error, a run that is not ok the subtitle
      failure. A throwing notification batch gives the download error too. */
  lemma SubtitleFailures(p: Payload, env: Env, mp3File: string, duration: int, transcriptionUrl: string,
                         srtUrl: string)
    ensures var t := [ConvertToMp3(p.videoUrl), TranscribeAudio(mp3File), GenerateSubtitles(transcriptionUrl)];
      && (&& Converts(p, env, mp3File, duration) && env.transcribe(mp3File) == Ok(transcriptionUrl)
          && env.generateSrt(transcriptionUrl).Threw?
          ==> ProcessVideo(p, env) == Run(Failed(DownloadError), t))
      && (&& Converts(p, env, mp3File, duration) && env.transcribe(mp3File) == Ok(transcriptionUrl)
          && env.generateSrt(transcriptionUrl).NotOk?
          ==> ProcessVideo(p, env) == Run(Failed(SrtFailed), t))
    ensures && Converts(p, env, mp3File, duration) && env.transcribe(mp3File) == Ok(transcriptionUrl)
            && env.generateSrt(transcriptionUrl) == Ok(srtUrl)
            && env.notify(SlackPayload(p.tenantId, p.projectId, transcriptionUrl, srtUrl, mp3File),
                          EmailPayload(p.tenantId, p.projectId, mp3File, srtUrl)) == BatchThrew
        ==> ProcessVideo(p, env).status == Failed(DownloadError) && |ProcessVideo(p, env).trace| == 5
  {
  }

  /** Both notifications carry the payload's tenant and project and the MP3 file the
      transcription was made from; the email carries the subtitle URL Slack receives. */
  lemma NotificationPayloads(p: Payload, env: Env)
    ensures var t := ProcessVideo(p, env).trace;
      |t| == 5 ==>
        && t[3].slack.tenantId == p.tenantId && t[3].slack.projectId == p.projectId
        && t[3].slack.mp3Url == t[1].audioUrl
        && t[4].email == EmailPayload(p.tenantId, p.projectId, t[1].audioUrl, t[3].slack.srtUrl)
  {
  }

  /** Notifications are sent exactly when the subtitles were generated; a subtitle failure
      sends neither. */
  lemma NotifiesOnlyAfterSubtitles(p: Payload, env: Env)
    ensures var r := ProcessVideo(p, env);
      && (|r.trace| == 5 <==> |r.trace| >= 3 && env.generateSrt(r.trace[2].transcriptionUrl).Ok?)
      && (r.status == Failed(SrtFailed) ==> |r.trace| == 3)
  {
  }

  /** A run that triggered any stage fails with the reason its last stage gives, and it
      succeeds only when all five stages ran and the batch reported both runs ok. */
  lemma LastStageDecides(p: Payload, env: Env)
    ensures var r := ProcessVideo(p, env);
      && (|r.trace| > 0 && r.status.Failed? ==> r.status.reason == FailureOf(env, r.trace))
      && (r.status.Succeeded? <==> |r.trace| == 5 && BatchOf(env, r.trace) == Some(Runs(true, true)))
  {
  }

  /** The download error is reported exactly when some triggered stage threw; it is always
      the last one triggered. */
  lemma DownloadErrorIff(p: Payload, env: Env)
    ensures var r := ProcessVideo(p, env);
      r.status == Failed(DownloadError) <==> |r.trace| > 0 && LastThrew(env, r.trace)
  {
  }

  /** When the batch reports both notifications failed, the reason names Slack. */
  lemma SlackBeforeEmail(p: Payload, env: Env)
    ensures var r := ProcessVideo(p, env);
      && (BatchOf(env, r.trace) == Some(Runs(false, false)) ==> r.status == Failed(SlackFailed))
      && (BatchOf(env, r.trace) == Some(Runs(true, false)) ==> r.status == Failed(EmailFailed))
  {
  }

  /** Success exactly when every stage completes, and the run then returns the MP3 file, its
      duration and the transcription. */
  lemma SuccessIff(p: Payload, env: Env, mp3File: string, duration: int, transcriptionUrl: string,
                   srtUrl: string)
    ensures Completes(p, env, mp3File, duration, transcriptionUrl, srtUrl)
        ==> ProcessVideo(p, env).status == Succeeded(mp3File, duration, transcriptionUrl)
    ensures var r := ProcessVideo(p, env);
      r.status.Succeeded? ==>
        Completes(p, env, r.status.mp3File, r.status.duration, r.status.transcriptionUrl, r.trace[3].slack.srtUrl)
  {
  }
}

=== FILE: segment_facts.dfy ===
/** What the greedy segmentation guarantees: it is the one and only way of cutting the words
    that follows the closing rule, it keeps every word exactly once and in order, and its
    cues are bounded in number and ordered in time as the words are. */
module SegmentFacts {
  import opened Text
  import opened Segmenter
  import opened Seqs

  /** The closing rule for one group: between 1 and `MaxWordsPerCue` words, no sentence end
      before its last word, and — unless it is the final group — it ends at a sentence end or
      at exactly `MaxWordsPerCue` words. */
  predicate WellClosed(g: seq<Word>, isLast: bool)
  {
    && 0 < |g| <= MaxWordsPerCue
    && (forall j :: 0 <= j < |g| - 1 ==> !IsSentenceEnd(g[j].word))
    && (isLast || IsSentenceEnd(g[|g| - 1].word) || |g| == MaxWordsPerCue)
  }

  /** An independent description of a valid cutting of `ws`: the groups, concatenated, are
      the words, and every group obeys the closing rule. */
  predicate IsSegmentation(ws: seq<Word>, gs: seq<seq<Word>>)
  {
    && Flatten(gs) == ws
    && forall k :: 0 <= k < |gs| ==> WellClosed(gs[k], k == |gs| - 1)
  }

  /** The first group from `first` on obeys the closing rule, and it is the final group
      exactly when it reaches the last word. */
  lemma FirstGroupWellClosed(ws: seq<Word>, first: nat)
    requires first < |ws|
    ensures WellClosed(ws[first..CueEnd(ws, first) + 1], CueEnd(ws, first) == |ws| - 1)
  {
    var k := CueEnd(ws, first);
    var g := ws[first..k + 1];
    forall j | 0 <= j < |g| - 1 ensures !IsSentenceEnd(g[j].word) {
      assert !ClosesAt(ws, first, first + j);
    }
  }

  lemma WellClosedCons(g: seq<Word>, rest: seq<seq<Word>>)
    requires WellClosed(g, |rest| == 0)
    requires forall k :: 0 <= k < |rest| ==> WellClosed(rest[k], k == |rest| - 1)
    ensures forall k :: 0 <= k < |rest| + 1 ==> WellClosed(([g] + rest)[k], k == |rest|)
  {
    forall k | 0 <= k < |rest| + 1 ensures WellClosed(([g] + rest)[k], k == |rest|) {
      if k > 0 {
        assert ([g] + rest)[k] == rest[k - 1];
      }
    }
  }

  /** Existence, from word `first` on: the greedy groups obey the closing rule. */
  lemma {:induction false} GroupsFromWellClosed(ws: seq<Word>, first: nat)
    requires first <= |ws|
    ensures forall k :: 0 <= k < |GroupsFrom(ws, first)| ==>
              WellClosed(GroupsFrom(ws, first)[k], k == |GroupsFrom(ws, first)| - 1)
    decreases |ws| - first
  {
    if first < |ws| {
      var k := CueEnd(ws, first);
      var g, rest := ws[first..k + 1], GroupsFrom(ws, k + 1);
      GroupsFromWellClosed(ws, k + 1);
      FirstGroupWellClosed(ws, first);
      assert |rest| == 0 <==> k == |ws| - 1;
      WellClosedCons(g, rest);
      GroupsFromStep(ws, first);
    }
  }

  /** The greedy segmentation is a valid cutting. */
  lemma GroupsIsSegmentation(ws: seq<Word>)
    ensures IsSegmentation(ws, Groups(ws))
  {
    GroupsPartition(ws);
    GroupsFromWellClosed(ws, 0);
  }

  /** Concatenating non-empty groups yields nothing only when there are no groups. */
  lemma FlattenEmpty(gs: seq<seq<Word>>)
    requires forall k :: 0 <= k < |gs| ==> |gs[k]| > 0
    ensures Flatten(gs) == [] <==> gs == []
  {
    if gs != [] {
      assert |Flatten(gs)| >= |gs[0]|;
    }
  }

  /** A well-closed group at the front of `ws[first..]` is the group the loop closes. */
  lemma WellClosedIsCueEnd(ws: seq<Word>, first: nat, g: seq<Word>, isLast: bool)
    requires first + |g| <= |ws|
    requires g == ws[first..first + |g|]
    requires WellClosed(g, isLast)
    requires isLast ==> first + |g| == |ws|
    ensures CueEnd(ws, first) == first + |g| - 1
  {
    var e := first + |g| - 1;
    var k := CueEnd(ws, first);
    assert ClosesAt(ws, first, e) by {
      assert ws[e] == g[|g| - 1];
    }
  }

  /** The groups after the first of a valid cutting cut the rest of the words validly. */
  lemma SegmentationTail(ws: seq<Word>, gs: seq<seq<Word>>)
    requires |gs| > 0
    requires IsSegmentation(ws, gs)
    ensures |gs[0]| <= |ws| && gs[0] == ws[..|gs[0]|]
    ensures IsSegmentation(ws[|gs[0]|..], gs[1..])
  {
    assert gs == [gs[0]] + gs[1..];
    FlattenCons(gs[0], gs[1..]);
    assert ws == gs[0] + Flatten(gs[1..]);
    assert ws[|gs[0]|..] == Flatten(gs[1..]);
    forall k | 0 <= k < |gs| - 1 ensures WellClosed(gs[1..][k], k == |gs| - 2) {
      assert gs[1..][k] == gs[k + 1];
    }
  }

  /** Every group of a valid cutting is non-empty. */
  lemma SegmentationNonEmpty(ws: seq<Word>, gs: seq<seq<Word>>)
    requires IsSegmentation(ws, gs)
    ensures gs == [] <==> ws == []
  {
    forall k | 0 <= k < |gs| ensures |gs[k]| > 0 {
      assert WellClosed(gs[k], k == |gs| - 1);
    }
    FlattenEmpty(gs);
  }

  /** Uniqueness, from word `first` on: any valid cutting of the remaining words is the
      greedy one. */
  lemma {:induction false} SegmentationUniqueFrom(ws: seq<Word>, first: nat, gs: seq<seq<Word>>)
    requires first <= |ws|
    requires IsSegmentation(ws[first..], gs)
    ensures gs == GroupsFrom(ws, first)
    decreases |gs|
  {
    SegmentationNonEmpty(ws[first..], gs);
    if first < |ws| {
      var g := gs[0];
      var next := first + |g|;
      assert next <= |ws| && g == ws[first..next] && IsSegmentation(ws[next..], gs[1..]) by {
        SegmentationTail(ws[first..], gs);
        assert ws[first..][|g|..] == ws[next..];
      }
      assert |gs| == 1 ==> next == |ws| by {
        SegmentationNonEmpty(ws[next..], gs[1..]);
      }
      assert next == CueEnd(ws, first) + 1 by {
        assert WellClosed(g, |gs| == 1);
        WellClosedIsCueEnd(ws, first, g, |gs| == 1);
      }
      calc {
        gs;
        [g] + gs[1..];
        == { SegmentationUniqueFrom(ws, next, gs[1..]); }
        [ws[first..next]] + GroupsFrom(ws, next);
        == { GroupsFromNext(ws, first, next); }
        GroupsFrom(ws, first);
      }
    }
  }

  /** The closing rule determines the cutting: a valid cutting of `ws` is exactly the
      greedy segmentation. */
  lemma SegmentationUnique(ws: seq<Word>, gs: seq<seq<Word>>)
    requires IsSegmentation(ws, gs)
    ensures gs == Groups(ws)
  {
    assert ws[0..] == ws;
    SegmentationUniqueFrom(ws, 0, gs);
  }

  /** Position in the concatenation at which group `k` begins. */
  function Offset(gs: seq<seq<Word>>, k: nat): nat
    requires k <= |gs|
  {
    if k == 0 then 0 else |gs[0]| + Offset(gs[1..], k - 1)
  }

  /** Group `k` sits in the concatenation at `Offset(gs, k)`. */
  lemma {:induction false} GroupAt(gs: seq<seq<Word>>, k: nat)
    requires k < |gs|
    ensures Offset(gs, k) + |gs[k]| <= |Flatten(gs)|
    ensures Flatten(gs)[Offset(gs, k)..Offset(gs, k) + |gs[k]|] == gs[k]
  {
    assert gs == [gs[0]] + gs[1..];
    FlattenCons(gs[0], gs[1..]);
    if k > 0 {
      GroupAt(gs[1..], k - 1);
      var o := Offset(gs[1..], k - 1);
      assert gs[1..][k - 1] == gs[k];
      assert Flatten(gs)[|gs[0]| + o..|gs[0]| + o + |gs[k]|] == Flatten(gs[1..])[o..o + |gs[k]|];
    }
  }

  /** Offsets of non-empty groups grow strictly: group `k1` begins before group `k2`. */
  lemma {:induction false} OffsetGrows(gs: seq<seq<Word>>, k1: nat, k2: nat)
    requires Bounded(gs)
    requires k1 < k2 <= |gs|
    ensures Offset(gs, k1) + |gs[k1]| <= Offset(gs, k2)
  {
    assert |gs[0]| >= 1;
    if k1 > 0 {
      assert Bounded(gs[1..]) by {
        forall j | 0 <= j < |gs| - 1 ensures 1 <= |gs[1..][j]| <= MaxWordsPerCue {
          assert gs[1..][j] == gs[j + 1];
        }
      }
      OffsetGrows(gs[1..], k1 - 1, k2 - 1);
      assert gs[1..][k1 - 1] == gs[k1];
    } else if k2 > 1 {
      assert Offset(gs, k2) == |gs[0]| + Offset(gs[1..], k2 - 1);
    }
  }

  /** The length of the concatenation of bounded groups. */
  lemma {:induction false} FlattenLength(gs: seq<seq<Word>>)
    requires Bounded(gs)
    ensures |gs| <= |Flatten(gs)| <= MaxWordsPerCue * |gs|
  {
    if |gs| > 0 {
      assert Bounded(gs[1..]) by {
        forall j | 0 <= j < |gs| - 1 ensures 1 <= |gs[1..][j]| <= MaxWordsPerCue {
          assert gs[1..][j] == gs[j + 1];
        }
      }
      FlattenLength(gs[1..]);
      assert |Flatten(gs)| == |gs[0]| + |Flatten(gs[1..])|;
    }
  }

  /** Cue `k` is the cue of group `k`. */
  lemma {:induction false} CuesOfIndex(gs: seq<seq<Word>>, k: nat)
    requires Bounded(gs)
    requires k < |gs|
    ensures CuesOf(gs)[k] == MakeCue(gs[k])
  {
    var front := gs[..|gs| - 1];
    assert Bounded(front) by {
      forall j | 0 <= j < |front| ensures 1 <= |front[j]| <= MaxWordsPerCue {
        assert front[j] == gs[j];
      }
    }
    if k < |gs| - 1 {
      CuesOfIndex(front, k);
      assert front[k] == gs[k];
    }
  }

  /** Count bounds: at most one cue per word, at least one cue per `MaxWordsPerCue` words, and
      no cues exactly when there are no words. */
  lemma SegmentCount(ws: seq<Word>)
    ensures |Segment(ws)| <= |ws| <= MaxWordsPerCue * |Segment(ws)|
    ensures |Segment(ws)| == 0 <==> |ws| == 0
  {
    GroupsPartition(ws);
    FlattenLength(Groups(ws));
  }

  /** Group `k` of the greedy segmentation is the run `ws[Offset..Offset + n]`. */
  lemma GroupRun(ws: seq<Word>, k: nat)
    requires k < |Groups(ws)|
    ensures Bounded(Groups(ws))
    ensures var p, n := Offset(Groups(ws), k), |Groups(ws)[k]|;
            1 <= n <= MaxWordsPerCue && p + n <= |ws| && Groups(ws)[k] == ws[p..p + n]
  {
    GroupsPartition(ws);
    GroupAt(Groups(ws), k);
  }

  /** Cue `k` is the cue of the contiguous run of words `ws[Offset..Offset + n]`, with
      `1 <= n <= MaxWordsPerCue`: it starts when the run's first word starts and ends when its
      last word ends. */
  lemma CueWords(ws: seq<Word>, k: nat)
    requires k < |Segment(ws)|
    ensures var p, n := Offset(Groups(ws), k), |Groups(ws)[k]|;
            && 1 <= n <= MaxWordsPerCue && p + n <= |ws| && Groups(ws)[k] == ws[p..p + n]
            && Segment(ws)[k] == MakeCue(ws[p..p + n])
            && Segment(ws)[k].start == ws[p].start && Segment(ws)[k].end == ws[p + n - 1].end
  {
    var gs := Groups(ws);
    GroupRun(ws, k);
    var p, n := Offset(gs, k), |gs[k]|;
    assert Segment(ws)[k] == MakeCue(gs[k]) by {
      CuesOfIndex(gs, k);
    }
    SliceEnds(ws, p, p + n);
  }

  /** Word start times never decrease along the transcript. */
  predicate StartsSorted(ws: seq<Word>)
  {
    forall i, j :: 0 <= i < j < |ws| ==> ws[i].start <= ws[j].start
  }

  /** Every word ends no earlier than it starts. */
  predicate WellTimed(ws: seq<Word>)
  {
    forall i :: 0 <= i < |ws| ==> ws[i].start <= ws[i].end
  }

  /** Monotone word starts give monotone cue starts. */
  lemma CueStartsSorted(ws: seq<Word>)
    requires StartsSorted(ws)
    ensures forall k1, k2 :: 0 <= k1 < k2 < |Segment(ws)| ==> Segment(ws)[k1].start <= Segment(ws)[k2].start
  {
    var gs := Groups(ws);
    GroupsPartition(ws);
    forall k1, k2 | 0 <= k1 < k2 < |Segment(ws)|
      ensures Segment(ws)[k1].start <= Segment(ws)[k2].start
    {
      CueWords(ws, k1);
      CueWords(ws, k2);
      OffsetGrows(gs, k1, k2);
    }
  }

  /** With monotone starts and well-timed words, every cue ends no earlier than it starts. */
  lemma CueStartBeforeEnd(ws: seq<Word>)
    requires StartsSorted(ws) && WellTimed(ws)
    ensures forall k :: 0 <= k < |Segment(ws)| ==> Segment(ws)[k].start <= Segment(ws)[k].end
  {
    forall k | 0 <= k < |Segment(ws)| ensures Segment(ws)[k].start <= Segment(ws)[k].end {
      CueWords(ws, k);
      var g := Groups(ws)[k];
      var p := Offset(Groups(ws), k);
      assert ws[p].start <= ws[p + |g| - 1].start <= ws[p + |g| - 1].end;
    }
  }

  /** Element `j` of the display forms is word `j`'s display form. */
  lemma {:induction false} PunctuatedIndex(ws: seq<Word>, j: nat)
    requires j < |ws|
    ensures Punctuated(ws)[j] == ws[j].punctuated
  {
    if j < |ws| - 1 {
      PunctuatedIndex(ws[..|ws| - 1], j);
    }
  }

  /** The display forms of two runs of words, one after the other. */
  lemma {:induction false} PunctuatedAppend(a: seq<Word>, b: seq<Word>)
    ensures Punctuated(a + b) == Punctuated(a) + Punctuated(b)
    decreases |b|
  {
    if |b| > 0 {
      assert (a + b)[..|a + b| - 1] == a + b[..|b| - 1];
      PunctuatedAppend(a, b[..|b| - 1]);
    } else {
      assert a + b == a;
    }
  }

  lemma {:induction false} FlattenSnoc(gs: seq<seq<Word>>, g: seq<Word>)
    ensures Flatten(gs + [g]) == Flatten(gs) + g
  {
    if |gs| == 0 {
      assert [] + [g] == [g];
      assert Flatten([g]) == g + Flatten([]);
    } else {
      assert (gs + [g])[1..] == gs[1..] + [g];
      FlattenSnoc(gs[1..], g);
    }
  }

  /** The texts of the cues, in order. */
  function Texts(cues: seq<Cue>): (r: seq<string>)
    ensures |r| == |cues|
  {
    if |cues| == 0 then [] else Texts(cues[..|cues| - 1]) + [cues[|cues| - 1].text]
  }

  /** A display form the cue text reproduces verbatim: non-empty and with no whitespace at
      either end, so trimming the joined words removes nothing. */
  predicate Clean(w: Word)
  {
    |w.punctuated| > 0 && !IsWhitespace(w.punctuated[0]) && !IsWhitespace(w.punctuated[|w.punctuated| - 1])
  }

  predicate AllClean(ws: seq<Word>)
  {
    forall i :: 0 <= i < |ws| ==> Clean(ws[i])
  }

  /** For clean words, trimming the joined display forms removes nothing. */
  lemma CleanText(g: seq<Word>)
    requires |g| > 0 && AllClean(g)
    ensures MakeCue(g).text == Join(Punctuated(g), " ")
  {
    var xs := Punctuated(g);
    var j := Join(xs, " ");
    PunctuatedIndex(g, 0);
    PunctuatedIndex(g, |g| - 1);
    JoinEdges(xs, " ");
    assert j[0] == xs[0][0] by {
      assert j[..|xs[0]|] == xs[0];
    }
    assert j[|j| - 1] == xs[|xs| - 1][|xs[|xs| - 1]| - 1] by {
      assert j[|j| - |xs[|xs| - 1]|..] == xs[|xs| - 1];
    }
    TrimNoEdgeWhitespace(j);
  }

  /** Splitting into cues loses and adds no text: with clean words, the cue texts joined by
      spaces are the display forms of all the words joined by spaces. */
  lemma {:induction false} TextsJoin(gs: seq<seq<Word>>)
    requires Bounded(gs)
    requires AllClean(Flatten(gs))
    ensures Join(Texts(CuesOf(gs)), " ") == Join(Punctuated(Flatten(gs)), " ")
    decreases |gs|
  {
    if |gs| > 0 {
      var front, g := gs[..|gs| - 1], gs[|gs| - 1];
      assert gs == front + [g];
      FlattenSnoc(front, g);
      assert Bounded(front) by {
        forall j | 0 <= j < |front| ensures 1 <= |front[j]| <= MaxWordsPerCue {
          assert front[j] == gs[j];
        }
      }
      var F := Flatten(front);
      assert AllClean(F) && AllClean(g) by {
        forall i | 0 <= i < |F| ensures Clean(F[i]) {
          assert F[i] == Flatten(gs)[i];
        }
        forall i | 0 <= i < |g| ensures Clean(g[i]) {
          assert g[i] == Flatten(gs)[|F| + i];
        }
      }
      CleanText(g);
      var ts := Texts(CuesOf(front));
      assert Texts(CuesOf(gs)) == ts + [Join(Punctuated(g), " ")];
      PunctuatedAppend(F, g);
      if |front| == 0 {
        assert F == [];
        assert Flatten(gs) == g;
      } else {
        FlattenLength(front);
        TextsJoin(front);
        JoinAppend(ts, [Join(Punctuated(g), " ")], " ");
        JoinAppend(Punctuated(F), Punctuated(g), " ");
      }
    }
  }

  /** The cue texts joined by spaces reproduce the transcript's display forms joined by spaces. */
  lemma SegmentText(ws: seq<Word>)
    requires AllClean(ws)
    ensures Join(Texts(Segment(ws)), " ") == Join(Punctuated(ws), " ")
  {
    GroupsPartition(ws);
    TextsJoin(Groups(ws));
  }

  /** The cue of a run of words has a line break only if some display form has one. */
  lemma RunTextNoNewline(run: seq<Word>)
    requires |run| > 0
    requires forall i :: 0 <= i < |run| ==> '\n' !in run[i].punctuated
    ensures '\n' !in MakeCue(run).text
  {
    var xs := Punctuated(run);
    forall j | 0 <= j < |xs| ensures '\n' !in xs[j] {
      PunctuatedIndex(run, j);
    }
    JoinChars(xs, " ", '\n');
    var a, b := TrimCuts(Join(xs, " "));
  }

  /** No cue text contains a line break unless some display form does. */
  lemma CueTextsNoNewline(ws: seq<Word>)
    requires forall i :: 0 <= i < |ws| ==> '\n' !in ws[i].punctuated
    ensures forall k :: 0 <= k < |Segment(ws)| ==> '\n' !in Segment(ws)[k].text
  {
    forall k | 0 <= k < |Segment(ws)| ensures '\n' !in Segment(ws)[k].text {
      CueWords(ws, k);
      var p, n := Offset(Groups(ws), k), |Groups(ws)[k]|;
      var run := ws[p..p + n];
      assert forall i :: 0 <= i < |run| ==> run[i] == ws[p + i];
      RunTextNoNewline(run);
    }
  }
}

=== FILE: segmenter.dfy ===
/** Caption segmentation (src/tasks/generateSRT.ts): a greedy single pass that cuts an ordered
    list of timed words into subtitle cues. A cue closes at a word whose unpunctuated form ends
    a sentence, when it holds twelve words, or at the last word. */
module Segmenter {
  import opened Text
  import opened Seqs

  /** The hard cap on the number of words in one cue. */
  const MaxWordsPerCue: nat := 12

  /** One transcript word: its bare form (`word`), its display form with punctuation
      (`punctuated_word`) and its timing, in whole milliseconds. */
  datatype Word = Word(word: string, punctuated: string, start: nat, end: nat)

  /** One subtitle entry. */
  datatype Cue = Cue(start: nat, end: nat, text: string)

  /** `isSentenceEnd`: the word's last character is one of `.`, `?` and `!`; the empty word
      ends nothing. */
  predicate IsSentenceEnd(w: string)
  {
    |w| > 0 && (w[|w| - 1] == '.' || w[|w| - 1] == '?' || w[|w| - 1] == '!')
  }

  /** The source's own formulation agrees: `[".", "?", "!"].includes(w.slice(-1))`. For the
      empty word `slice(-1)` is the empty string, which is not in the list. */
  lemma SentenceEndBySlice(w: string)
    ensures IsSentenceEnd(w) <==> SliceLast(w) in [".", "?", "!"]
  {
    if |w| > 0 {
      var last := SliceLast(w);
      assert last == [w[|w| - 1]];
      if SliceLast(w) in [".", "?", "!"] {
        assert last[0] == '.' || last[0] == '?' || last[0] == '!';
      }
    } else {
      assert SliceLast(w) == "";
      assert "" != "." && "" != "?" && "" != "!";
    }
  }

  /** The display forms of the words, in order. */
  function Punctuated(ws: seq<Word>): (r: seq<string>)
    ensures |r| == |ws|
  {
    if |ws| == 0 then [] else Punctuated(ws[..|ws| - 1]) + [ws[|ws| - 1].punctuated]
  }

  /** Whether the cue that began at word `first` closes at word `j`: the word ends a sentence,
      the cue then holds `MaxWordsPerCue` words, or there is no word after it. */
  predicate ClosesAt(ws: seq<Word>, first: nat, j: nat)
    requires first <= j < |ws|
  {
    IsSentenceEnd(ws[j].word) || j - first + 1 >= MaxWordsPerCue || j == |ws| - 1
  }

  /** The first position at or after `j` at which the cue that began at `first` closes. */
  function CloseFrom(ws: seq<Word>, first: nat, j: nat): (k: nat)
    requires first <= j < |ws|
    ensures j <= k < |ws| && ClosesAt(ws, first, k)
    ensures forall m :: j <= m < k ==> !ClosesAt(ws, first, m)
    decreases |ws| - j
  {
    if ClosesAt(ws, first, j) then j else CloseFrom(ws, first, j + 1)
  }

  /** The position of the last word of the cue that begins at `first`: the first closing word,
      which leaves the cue at most `MaxWordsPerCue` words long. */
  function CueEnd(ws: seq<Word>, first: nat): (k: nat)
    requires first < |ws|
    ensures first <= k < |ws| && k - first < MaxWordsPerCue
    ensures ClosesAt(ws, first, k)
    ensures forall m :: first <= m < k ==> !ClosesAt(ws, first, m)
  {
    var k := CloseFrom(ws, first, first);
    assert k - first < MaxWordsPerCue by {
      if k - first >= MaxWordsPerCue {
        assert ClosesAt(ws, first, first + MaxWordsPerCue - 1);
      }
    }
    k
  }

  /** The groups of words the loop turns into cues, from word `first` on. */
  function GroupsFrom(ws: seq<Word>, first: nat): seq<seq<Word>>
    requires first <= |ws|
    decreases |ws| - first
  {
    if first == |ws| then []
    else
      var k := CueEnd(ws, first);
      [ws[first..k + 1]] + GroupsFrom(ws, k + 1)
  }

  /** The greedy segmentation: the words of each cue, in order. */
  function Groups(ws: seq<Word>): seq<seq<Word>>
  {
    GroupsFrom(ws, 0)
  }

  /** The groups concatenated in order. */
  function Flatten(gs: seq<seq<Word>>): seq<Word>
  {
    if |gs| == 0 then [] else gs[0] + Flatten(gs[1..])
  }

  /** Every group holds between 1 and `MaxWordsPerCue` words. */
  predicate Bounded(gs: seq<seq<Word>>)
  {
    forall k :: 0 <= k < |gs| ==> 1 <= |gs[k]| <= MaxWordsPerCue
  }

  /** The cue a group of words becomes: it starts when its first word starts, ends when its
      last word ends, and shows the display forms joined by single spaces, then trimmed. */
  function MakeCue(g: seq<Word>): Cue
    requires |g| > 0
  {
    Cue(g[0].start, g[|g| - 1].end, Trim(Join(Punctuated(g), " ")))
  }

  /** The cue of each group, in order. */
  function CuesOf(gs: seq<seq<Word>>): (cues: seq<Cue>)
    requires Bounded(gs)
    ensures |cues| == |gs|
  {
    if |gs| == 0 then [] else CuesOf(gs[..|gs| - 1]) + [MakeCue(gs[|gs| - 1])]
  }

  lemma FlattenCons(g: seq<Word>, gs: seq<seq<Word>>)
    ensures Flatten([g] + gs) == g + Flatten(gs)
  {
    assert ([g] + gs)[1..] == gs;
  }

  lemma BoundedCons(g: seq<Word>, gs: seq<seq<Word>>)
    requires 1 <= |g| <= MaxWordsPerCue && Bounded(gs)
    ensures Bounded([g] + gs)
  {
    forall j | 0 <= j < |gs| + 1 ensures 1 <= |([g] + gs)[j]| <= MaxWordsPerCue {
      if j > 0 { assert ([g] + gs)[j] == gs[j - 1]; }
    }
  }

  /** The first group from word `first` on, and the groups after it. */
  lemma GroupsFromStep(ws: seq<Word>, first: nat)
    requires first < |ws|
    ensures GroupsFrom(ws, first) == [ws[first..CueEnd(ws, first) + 1]] + GroupsFrom(ws, CueEnd(ws, first) + 1)
  {
  }

  /** The same step, naming the position where the next group begins. */
  lemma GroupsFromNext(ws: seq<Word>, first: nat, next: nat)
    requires first < |ws| && next == CueEnd(ws, first) + 1
    ensures GroupsFrom(ws, first) == [ws[first..next]] + GroupsFrom(ws, next)
  {
  }

  /** Every group from word `first` on holds between 1 and `MaxWordsPerCue` words. */
  lemma {:induction false} GroupsFromBounded(ws: seq<Word>, first: nat)
    requires first <= |ws|
    ensures Bounded(GroupsFrom(ws, first))
    decreases |ws| - first
  {
    if first < |ws| {
      var k := CueEnd(ws, first);
      var g, rest := ws[first..k + 1], GroupsFrom(ws, k + 1);
      assert Bounded([g] + rest) by {
        GroupsFromBounded(ws, k + 1);
        BoundedCons(g, rest);
      }
      GroupsFromStep(ws, first);
    }
  }

  /** The groups from word `first` on, concatenated, are exactly the remaining words. */
  lemma {:induction false} GroupsFromFlatten(ws: seq<Word>, first: nat)
    requires first <= |ws|
    ensures Flatten(GroupsFrom(ws, first)) == ws[first..]
    decreases |ws| - first
  {
    if first < |ws| {
      var k := CueEnd(ws, first);
      var g, rest := ws[first..k + 1], GroupsFrom(ws, k + 1);
      calc {
        Flatten(GroupsFrom(ws, first));
        == { GroupsFromStep(ws, first); }
        Flatten([g] + rest);
        == { FlattenCons(g, rest); }
        g + Flatten(rest);
        == { GroupsFromFlatten(ws, k + 1); }
        g + ws[k + 1..];
        == { SliceSplit(ws, first, k + 1); }
        ws[first..];
      }
    }
  }

  /** Partition: every word lands in exactly one group, in its original order — none dropped,
      duplicated or reordered — and every group holds between 1 and `MaxWordsPerCue` words. */
  lemma GroupsPartition(ws: seq<Word>)
    ensures Flatten(Groups(ws)) == ws
    ensures Bounded(Groups(ws))
  {
    GroupsFromFlatten(ws, 0);
    GroupsFromBounded(ws, 0);
    assert ws[0..] == ws;
  }

  /** The cues the segmentation loop produces for `ws`. */
  function Segment(ws: seq<Word>): seq<Cue>
  {
    GroupsPartition(ws);
    CuesOf(Groups(ws))
  }

  /** When the word at `i` closes the cue that began at `first`, the buffered words form the
      next group and segmentation resumes after `i`. */
  lemma CloseStep(words: seq<Word>, first: nat, i: nat)
    requires first <= i < |words|
    requires i <= CueEnd(words, first)
    requires ClosesAt(words, first, i)
    ensures GroupsFrom(words, first) == [words[first..i + 1]] + GroupsFrom(words, i + 1)
  {
  }

  /** A word that does not close the cue leaves the cue open for at least one more word. */
  lemma OpenStep(words: seq<Word>, first: nat, i: nat)
    requires first <= i < |words|
    requires i <= CueEnd(words, first)
    requires !ClosesAt(words, first, i)
    ensures i + 1 <= CueEnd(words, first)
  {
  }

  /** Pushing the next word's display form onto the buffer keeps it in step with the words. */
  lemma PunctuatedSnoc(words: seq<Word>, first: nat, i: nat)
    requires first <= i < |words|
    ensures Punctuated(words[first..i + 1]) == Punctuated(words[first..i]) + [words[i].punctuated]
  {
    assert words[first..i + 1][..i - first] == words[first..i];
  }

  /** Appending a group appends its cue. */
  lemma CuesOfSnoc(gs: seq<seq<Word>>, g: seq<Word>)
    requires Bounded(gs)
    requires 0 < |g| <= MaxWordsPerCue
    ensures Bounded(gs + [g])
    ensures CuesOf(gs + [g]) == CuesOf(gs) + [MakeCue(g)]
  {
    assert (gs + [g])[..|gs|] == gs;
  }

  /** The segmentation loop of `generateSrtTask.run` as it runs from word `i` on, with `cues`
      emitted so far, the display forms `buffer` of the open cue and that cue's start time. */
  function Loop(words: seq<Word>, i: nat, cues: seq<Cue>, buffer: seq<string>, start: nat): seq<Cue>
    requires i <= |words|
    decreases |words| - i
  {
    if i == |words| then cues
    else
      var w := words[i];
      var buffer' := buffer + [w.punctuated];
      if IsSentenceEnd(w.word) || |buffer'| >= MaxWordsPerCue || i == |words| - 1 then
        var cues' := cues + [Cue(start, w.end, Trim(Join(buffer', " ")))];
        if i < |words| - 1 then Loop(words, i + 1, cues', [], words[i + 1].start)
        else Loop(words, i + 1, cues', buffer', start)
      else Loop(words, i + 1, cues, buffer', start)
  }

  /** What the loop's state says about the greedy segmentation: the cues emitted so far are
      those of the first groups, the open cue began at word `first` and has not yet closed,
      and the buffer holds the display forms of its words. */
  ghost predicate Tracks(words: seq<Word>, i: nat, first: nat, groups: seq<seq<Word>>,
                         cues: seq<Cue>, buffer: seq<string>, start: nat)
  {
    && first <= i <= |words|
    && (first == |words| ==> i == |words|)
    && (first < |words| ==> i <= CueEnd(words, first) && start == words[first].start)
    && (i < |words| ==> buffer == Punctuated(words[first..i]))
    && Bounded(groups)
    && Groups(words) == groups + GroupsFrom(words, first)
    && cues == CuesOf(groups)
  }

  /** The loop's guard is exactly `ClosesAt` once the buffer holds the open cue's words. */
  lemma GuardCloses(words: seq<Word>, first: nat, i: nat, buffer: seq<string>)
    requires first <= i < |words|
    requires buffer == Punctuated(words[first..i + 1])
    ensures (IsSentenceEnd(words[i].word) || |buffer| >= MaxWordsPerCue || i == |words| - 1)
        <==> ClosesAt(words, first, i)
  {
  }

  /** In a state the invariant describes, the loop's guard at word `i` is `ClosesAt`. */
  lemma TracksGuard(words: seq<Word>, i: nat, first: nat, groups: seq<seq<Word>>,
                    cues: seq<Cue>, buffer: seq<string>, start: nat)
    requires i < |words|
    requires Tracks(words, i, first, groups, cues, buffer, start)
    ensures first <= i
    ensures (IsSentenceEnd(words[i].word) || |buffer + [words[i].punctuated]| >= MaxWordsPerCue
             || i == |words| - 1) <==> ClosesAt(words, first, i)
  {
    PunctuatedSnoc(words, first, i);
    GuardCloses(words, first, i, buffer + [words[i].punctuated]);
  }

  /** Closing the open cue at word `i` appends its words as the next group. */
  lemma CloseGroups(words: seq<Word>, first: nat, i: nat, groups: seq<seq<Word>>)
    requires first <= i < |words|
    requires i <= CueEnd(words, first)
    requires ClosesAt(words, first, i)
    requires Groups(words) == groups + GroupsFrom(words, first)
    ensures Groups(words) == (groups + [words[first..i + 1]]) + GroupsFrom(words, i + 1)
  {
    CloseStep(words, first, i);
    AppendAssoc(groups, [words[first..i + 1]], GroupsFrom(words, i + 1));
  }

  /** The cue emitted from the buffer is the cue of the closed group. */
  lemma CloseCues(words: seq<Word>, first: nat, i: nat, groups: seq<seq<Word>>,
                  cues: seq<Cue>, buffer: seq<string>, start: nat)
    requires first <= i < |words| && i - first < MaxWordsPerCue
    requires Bounded(groups) && cues == CuesOf(groups)
    requires buffer == Punctuated(words[first..i]) && start == words[first].start
    ensures Bounded(groups + [words[first..i + 1]])
    ensures cues + [Cue(start, words[i].end, Trim(Join(buffer + [words[i].punctuated], " ")))]
         == CuesOf(groups + [words[first..i + 1]])
  {
    var g := words[first..i + 1];
    PunctuatedSnoc(words, first, i);
    assert buffer + [words[i].punctuated] == Punctuated(g);
    CuesOfSnoc(groups, g);
  }

  /** Closing the cue at word `i` emits the cue of the next group. */
  lemma CloseTracks(words: seq<Word>, i: nat, first: nat, groups: seq<seq<Word>>,
                    cues: seq<Cue>, buffer: seq<string>, start: nat)
    requires i < |words|
    requires Tracks(words, i, first, groups, cues, buffer, start)
    requires ClosesAt(words, first, i)
    ensures first <= i <= CueEnd(words, first)
    ensures Bounded(groups + [words[first..i + 1]])
    ensures Groups(words) == (groups + [words[first..i + 1]]) + GroupsFrom(words, i + 1)
    ensures cues + [Cue(start, words[i].end, Trim(Join(buffer + [words[i].punctuated], " ")))]
         == CuesOf(groups + [words[first..i + 1]])
  {
    CloseGroups(words, first, i, groups);
    CloseCues(words, first, i, groups, cues, buffer, start);
  }

  /** After a cue closes before the last word, the loop resumes with an empty buffer and the
      next word's start time. */
  lemma CloseTracksMid(words: seq<Word>, i: nat, first: nat, groups: seq<seq<Word>>,
                       cues: seq<Cue>, buffer: seq<string>, start: nat)
    requires i < |words| - 1
    requires Tracks(words, i, first, groups, cues, buffer, start)
    requires ClosesAt(words, first, i)
    ensures Tracks(words, i + 1, i + 1, groups + [words[first..i + 1]],
                   cues + [Cue(start, words[i].end, Trim(Join(buffer + [words[i].punctuated], " ")))],
                   [], words[i + 1].start)
  {
    CloseTracks(words, i, first, groups, cues, buffer, start);
    assert Punctuated(words[i + 1..i + 1]) == [];
  }

  /** Closing the cue at the last word leaves nothing to segment. */
  lemma CloseTracksLast(words: seq<Word>, i: nat, first: nat, groups: seq<seq<Word>>,
                        cues: seq<Cue>, buffer: seq<string>, start: nat)
    requires i == |words| - 1
    requires Tracks(words, i, first, groups, cues, buffer, start)
    requires ClosesAt(words, first, i)
    ensures Tracks(words, i + 1, i + 1, groups + [words[first..i + 1]],
                   cues + [Cue(start, words[i].end, Trim(Join(buffer + [words[i].punctuated], " ")))],
                   buffer + [words[i].punctuated], start)
  {
    CloseTracks(words, i, first, groups, cues, buffer, start);
  }

  /** A word that does not close the cue joins the buffer. */
  lemma OpenTracks(words: seq<Word>, i: nat, first: nat, groups: seq<seq<Word>>,
                   cues: seq<Cue>, buffer: seq<string>, start: nat)
    requires i < |words|
    requires Tracks(words, i, first, groups, cues, buffer, start)
    requires !ClosesAt(words, first, i)
    ensures Tracks(words, i + 1, first, groups, cues, buffer + [words[i].punctuated], start)
  {
    PunctuatedSnoc(words, first, i);
    OpenStep(words, first, i);
  }

  /** From any state the loop's invariant describes, the loop finishes with the greedy
      segmentation's cues. */
  lemma {:induction false} LoopSegments(words: seq<Word>, i: nat, first: nat, groups: seq<seq<Word>>,
                                        cues: seq<Cue>, buffer: seq<string>, start: nat)
    requires Tracks(words, i, first, groups, cues, buffer, start)
    ensures Loop(words, i, cues, buffer, start) == Segment(words)
    decreases |words| - i
  {
    if i == |words| {
      assert GroupsFrom(words, first) == [];
      assert Groups(words) == groups;
    } else {
      var buffer' := buffer + [words[i].punctuated];
      TracksGuard(words, i, first, groups, cues, buffer, start);
      if ClosesAt(words, first, i) {
        var g := words[first..i + 1];
        var cues' := cues + [Cue(start, words[i].end, Trim(Join(buffer', " ")))];
        if i < |words| - 1 {
          CloseTracksMid(words, i, first, groups, cues, buffer, start);
          LoopSegments(words, i + 1, i + 1, groups + [g], cues', [], words[i + 1].start);
        } else {
          CloseTracksLast(words, i, first, groups, cues, buffer, start);
          LoopSegments(words, i + 1, i + 1, groups + [g], cues', buffer', start);
        }
      } else {
        OpenTracks(words, i, first, groups, cues, buffer, start);
        LoopSegments(words, i + 1, first, groups, cues, buffer', start);
      }
    }
  }

  /** The loop computes the greedy segmentation. */
  lemma LoopIsSegment(words: seq<Word>)
    ensures Loop(words, 0, [], [], if |words| > 0 then words[0].start else 0) == Segment(words)
  {
    assert Punctuated(words[0..0]) == [];
    assert CuesOf([]) == [];
    LoopSegments(words, 0, 0, [], [], [], if |words| > 0 then words[0].start else 0);
  }

  /** The segmentation loop of `generateSrtTask.run`: words are pushed onto a buffer, and the
      buffer becomes a cue when the current word ends a sentence, the buffer reaches twelve
      words, or the word is the last one. It computes exactly `Segment`. */
  method SegmentWords(words: seq<Word>) returns (cues: seq<Cue>)
    ensures cues == Segment(words)
  {
    cues := [];
    var currentSegmentWords: seq<string> := [];
    var currentSegmentStart: nat := if |words| > 0 then words[0].start else 0;
    LoopIsSegment(words);
    for i := 0 to |words|
      invariant Loop(words, i, cues, currentSegmentWords, currentSegmentStart) == Segment(words)
    {
      var w := words[i];
      currentSegmentWords := currentSegmentWords + [w.punctuated];
      var isEndOfSentence := IsSentenceEnd(w.word);
      var reachedMaxWords := |currentSegmentWords| >= MaxWordsPerCue;
      if isEndOfSentence || reachedMaxWords || i == |words| - 1 {
        cues := cues + [Cue(currentSegmentStart, w.end, Trim(Join(currentSegmentWords, " ")))];
        if i < |words| - 1 {
          currentSegmentWords := [];
          currentSegmentStart := words[i + 1].start;
        }
      }
    }
  }
}

=== FILE: seqs.dfy ===
/** Small facts about sequences that the proofs use as rewriting steps. */
module Seqs {
  lemma AppendAssoc<T>(a: seq<T>, b: seq<T>, c: seq<T>)
    ensures (a + b) + c == a + (b + c)
  {
  }

  lemma SliceSplit<T>(s: seq<T>, a: nat, b: nat)
    requires a <= b <= |s|
    ensures s[a..b] + s[b..] == s[a..]
  {
  }

  lemma SliceEnds<T>(s: seq<T>, a: nat, b: nat)
    requires a < b <= |s|
    ensures s[a..b][0] == s[a] && s[a..b][b - a - 1] == s[b - 1]
  {
  }

  lemma ConsSplit<T>(s: seq<T>)
    requires |s| > 0
    ensures [s[0]] + s[1..] == s
  {
  }

  lemma TakeSnoc<T>(s: seq<T>, i: nat)
    requires i < |s|
    ensures s[..i + 1] == s[..i] + [s[i]]
  {
  }

  lemma DropSnoc<T>(s: seq<T>, x: T)
    requires |s| > 0
    ensures (s + [x])[1..] == s[1..] + [x]
  {
  }
}

=== FILE: srt_format.dfy ===
/** The SRT document `generateSrtTask.run` builds from its cues (src/tasks/generateSRT.ts),
    and a reader for that document which recovers the cues. */
module SrtFormat {
  import opened Wrappers
  import opened Text
  import opened Decimal
  import opened SrtTime
  import opened Segmenter
  import opened Seqs

  /** The separator between the two timestamps of a timing line. */
  const Arrow: string := " --> "

  /** The timing line of a cue: its start and end timestamps around the arrow. */
  function TimeLine(cue: Cue): string
  {
    FormatTimestamp(cue.start) + Arrow + FormatTimestamp(cue.end)
  }

  /** One SRT block: the 1-based index, the timing line, the text, then a blank line. */
  function Block(index: nat, cue: Cue): string
  {
    NatToString(index) + "\n" + TimeLine(cue) + "\n" + cue.text + "\n" + "\n"
  }

  /** The blocks of `cues`, numbered from `index` on, concatenated. */
  function SerializeFrom(cues: seq<Cue>, index: nat): string
  {
    if |cues| == 0 then "" else Block(index, cues[0]) + SerializeFrom(cues[1..], index + 1)
  }

  /** The whole SRT document: blocks numbered from 1, in cue order. */
  function Serialize(cues: seq<Cue>): string
  {
    SerializeFrom(cues, 1)
  }

  /** The document starts with the block of the first cue. */
  lemma SerializeCons(cues: seq<Cue>, cue: Cue, index: nat)
    requires |cues| > 0
    ensures SerializeFrom(cues + [cue], index) == Block(index, cues[0]) + SerializeFrom(cues[1..] + [cue], index + 1)
  {
    DropSnoc(cues, cue);
  }

  /** One step of `SerializeSnoc`: appending to the cues after the first. */
  lemma SerializeSnocStep(cues: seq<Cue>, cue: Cue, index: nat, n: nat)
    requires |cues| > 0
    requires SerializeFrom(cues[1..] + [cue], index + 1) == SerializeFrom(cues[1..], index + 1) + Block(n, cue)
    ensures SerializeFrom(cues + [cue], index) == SerializeFrom(cues, index) + Block(n, cue)
  {
    SerializeCons(cues, cue, index);
    AppendAssoc(Block(index, cues[0]), SerializeFrom(cues[1..], index + 1), Block(n, cue));
  }

  /** Appending a cue appends its block, numbered `n`, after the ones before it. */
  lemma {:induction false} SerializeSnoc(cues: seq<Cue>, cue: Cue, index: nat, n: nat)
    requires n == index + |cues|
    ensures SerializeFrom(cues + [cue], index) == SerializeFrom(cues, index) + Block(n, cue)
    decreases |cues|
  {
    if |cues| == 0 {
      assert cues + [cue] == [cue];
      assert [cue][1..] == [];
    } else {
      SerializeSnoc(cues[1..], cue, index + 1, n);
      SerializeSnocStep(cues, cue, index, n);
    }
  }

  /** The document for one more cue of a list is the document so far and that cue's block. */
  lemma SerializePrefix(cues: seq<Cue>, index: nat)
    requires index < |cues|
    ensures Serialize(cues[..index + 1]) == Serialize(cues[..index]) + Block(index + 1, cues[index])
  {
    SerializeSnoc(cues[..index], cues[index], 1, index + 1);
    TakeSnoc(cues, index);
  }

  /** Cuts `s` at its first line break into the line and what follows it. */
  function SplitLine(s: string): (r: Option<(string, string)>)
    ensures r.Some? ==> |r.value.1| < |s|
  {
    var i := FindChar(s, '\n');
    if i == |s| then None else Some((s[..i], s[i + 1..]))
  }

  /** Reads a timing line `start --> end`. */
  function ParseTimeLine(line: string): Option<(nat, nat)>
  {
    var k := FindChar(line, ' ');
    if k + |Arrow| > |line| || line[k..k + |Arrow|] != Arrow then None
    else
      match (ParseTimestamp(line[..k]), ParseTimestamp(line[k + |Arrow|..]))
      case (Some(start), Some(end)) => Some((start, end))
      case _ => None
  }

  /** Reads the text line and the blank line that close a block timed `start --> end`. */
  function ParseText(s: string, start: nat, end: nat): (r: Option<(Cue, string)>)
    ensures r.Some? ==> |r.value.1| < |s|
  {
    match SplitLine(s)
    case None => None
    case Some((text, rest)) =>
      if |rest| == 0 || rest[0] != '\n' then None
      else Some((Cue(start, end, text), rest[1..]))
  }

  /** Reads the timing line of a block, then its text. */
  function ParseTimed(s: string): (r: Option<(Cue, string)>)
    ensures r.Some? ==> |r.value.1| < |s|
  {
    match SplitLine(s)
    case None => None
    case Some((timeLine, rest)) =>
      match ParseTimeLine(timeLine)
      case None => None
      case Some((start, end)) => ParseText(rest, start, end)
  }

  /** Reads one block numbered `index` off the front of `s`, returning its cue and the rest. */
  function ParseBlock(s: string, index: nat): (r: Option<(Cue, string)>)
    ensures r.Some? ==> |r.value.1| < |s|
  {
    match SplitLine(s)
    case None => None
    case Some((indexLine, rest)) =>
      if !(|indexLine| > 0 && AllDigits(indexLine) && DigitsValue(indexLine) == index) then None
      else ParseTimed(rest)
  }

  /** Reads blocks numbered from `index` on until the input is used up. */
  function ParseFrom(s: string, index: nat): Option<seq<Cue>>
    decreases |s|
  {
    if |s| == 0 then Some([])
    else
      match ParseBlock(s, index)
      case None => None
      case Some((cue, rest)) =>
        match ParseFrom(rest, index + 1)
        case None => None
        case Some(cues) => Some([cue] + cues)
  }

  /** Reads a whole SRT document. */
  function ParseSrt(s: string): Option<seq<Cue>>
  {
    ParseFrom(s, 1)
  }

  /** A line without a break, followed by one, is cut exactly there. */
  lemma SplitLineOf(line: string, rest: string)
    requires '\n' !in line
    ensures SplitLine(line + ("\n" + rest)) == Some((line, rest))
  {
    var s := line + ("\n" + rest);
    var i := FindChar(s, '\n');
    assert s[|line|] == '\n';
    assert s[..|line|] == line;
    assert s[|line| + 1..] == rest;
  }

  lemma ArrowChars()
    ensures |Arrow| == 5 && Arrow[0] == ' ' && '\n' !in Arrow
  {
  }

  /** A timing line made of two timestamps reads back as their times, provided the first
      timestamp has no space in it. */
  lemma TimeLineOfStamps(sa: string, sb: string, a: nat, b: nat)
    requires ' ' !in sa
    requires ParseTimestamp(sa) == Some(a) && ParseTimestamp(sb) == Some(b)
    ensures ParseTimeLine(sa + Arrow + sb) == Some((a, b))
  {
    var line := sa + Arrow + sb;
    ArrowChars();
    var k := FindChar(line, ' ');
    assert line[|sa|] == ' ';
    assert line[..|sa|] == sa;
    assert line[|sa|..|sa| + |Arrow|] == Arrow;
    assert line[|sa| + |Arrow|..] == sb;
  }

  /** The timing line of a cue reads back as the cue's start and end. */
  lemma TimeLineOf(cue: Cue)
    ensures '\n' !in TimeLine(cue)
    ensures ParseTimeLine(TimeLine(cue)) == Some((cue.start, cue.end))
  {
    var sa, sb := FormatTimestamp(cue.start), FormatTimestamp(cue.end);
    TimestampCharacters(cue.start);
    TimestampCharacters(cue.end);
    TimestampRoundTrip(cue.start);
    TimestampRoundTrip(cue.end);
    ArrowChars();
    TimeLineOfStamps(sa, sb, cue.start, cue.end);
  }

  /** A block followed by more text, regrouped line by line. */
  lemma BlockShape(i: string, t: string, x: string, rest: string)
    ensures i + "\n" + t + "\n" + x + "\n" + "\n" + rest
         == i + ("\n" + (t + ("\n" + (x + ("\n" + ("\n" + rest))))))
  {
    var nl := "\n";
    calc {
      ((((((i + nl) + t) + nl) + x) + nl) + nl) + rest;
      == { AppendAssoc((((((i + nl) + t) + nl) + x) + nl), nl, rest); }
      (((((i + nl) + t) + nl) + x) + nl) + (nl + rest);
      == { AppendAssoc(((((i + nl) + t) + nl) + x), nl, nl + rest); }
      ((((i + nl) + t) + nl) + x) + (nl + (nl + rest));
      == { AppendAssoc((((i + nl) + t) + nl), x, nl + (nl + rest)); }
      (((i + nl) + t) + nl) + (x + (nl + (nl + rest)));
      == { AppendAssoc(((i + nl) + t), nl, x + (nl + (nl + rest))); }
      ((i + nl) + t) + (nl + (x + (nl + (nl + rest))));
      == { AppendAssoc(i + nl, t, nl + (x + (nl + (nl + rest)))); }
      (i + nl) + (t + (nl + (x + (nl + (nl + rest)))));
      == { AppendAssoc(i, nl, t + (nl + (x + (nl + (nl + rest))))); }
      i + (nl + (t + (nl + (x + (nl + (nl + rest))))));
    }
  }

  /** The decimal index contains no line break. */
  lemma IndexLine(index: nat)
    ensures '\n' !in NatToString(index)
    ensures |NatToString(index)| > 0 && AllDigits(NatToString(index))
    ensures DigitsValue(NatToString(index)) == index
  {
    NatToStringRoundTrip(index);
  }

  /** A text line and a blank line read back as the cue's text. */
  lemma ParseTextOf(text: string, rest: string, start: nat, end: nat)
    requires '\n' !in text
    ensures ParseText(text + ("\n" + ("\n" + rest)), start, end) == Some((Cue(start, end, text), rest))
  {
    var s3 := "\n" + rest;
    SplitLineOf(text, s3);
    assert s3[1..] == rest;
  }

  /** A timing line followed by a text line and a blank line reads back as the cue. */
  lemma ParseTimedOf(timeLine: string, text: string, rest: string, start: nat, end: nat)
    requires '\n' !in timeLine && '\n' !in text
    requires ParseTimeLine(timeLine) == Some((start, end))
    ensures ParseTimed(timeLine + ("\n" + (text + ("\n" + ("\n" + rest))))) == Some((Cue(start, end, text), rest))
  {
    var s2 := text + ("\n" + ("\n" + rest));
    SplitLineOf(timeLine, s2);
    ParseTextOf(text, rest, start, end);
  }

  /** Three lines and a blank line read back as a block, whatever the lines came from. */
  lemma ParseLines(index: nat, indexLine: string, timeLine: string, text: string, rest: string,
                   start: nat, end: nat)
    requires '\n' !in indexLine && '\n' !in timeLine && '\n' !in text
    requires |indexLine| > 0 && AllDigits(indexLine) && DigitsValue(indexLine) == index
    requires ParseTimeLine(timeLine) == Some((start, end))
    ensures ParseBlock(indexLine + ("\n" + (timeLine + ("\n" + (text + ("\n" + ("\n" + rest)))))), index)
         == Some((Cue(start, end, text), rest))
  {
    var s1 := timeLine + ("\n" + (text + ("\n" + ("\n" + rest))));
    SplitLineOf(indexLine, s1);
    ParseTimedOf(timeLine, text, rest, start, end);
  }

  /** A block whose text has no line break reads back as its cue, leaving what followed it. */
  lemma ParseBlockOf(index: nat, cue: Cue, rest: string)
    requires '\n' !in cue.text
    ensures ParseBlock(Block(index, cue) + rest, index) == Some((cue, rest))
  {
    var indexLine, timeLine := NatToString(index), TimeLine(cue);
    BlockShape(indexLine, timeLine, cue.text, rest);
    IndexLine(index);
    TimeLineOf(cue);
    ParseLines(index, indexLine, timeLine, cue.text, rest, cue.start, cue.end);
  }

  /** Reading a block and then the blocks after it. */
  lemma ParseFromStep(s: string, index: nat, cue: Cue, rest: string, tail: seq<Cue>)
    requires ParseBlock(s, index) == Some((cue, rest))
    requires ParseFrom(rest, index + 1) == Some(tail)
    ensures ParseFrom(s, index) == Some([cue] + tail)
  {
  }

  /** Reading the blocks numbered from `index` gives back the cues they were written from. */
  lemma {:induction false} ParseSerializeFrom(cues: seq<Cue>, index: nat)
    requires forall k :: 0 <= k < |cues| ==> '\n' !in cues[k].text
    ensures ParseFrom(SerializeFrom(cues, index), index) == Some(cues)
    decreases |cues|
  {
    if |cues| > 0 {
      var rest := SerializeFrom(cues[1..], index + 1);
      var s := SerializeFrom(cues, index);
      assert ParseBlock(s, index) == Some((cues[0], rest)) by {
        assert s == Block(index, cues[0]) + rest;
        ParseBlockOf(index, cues[0], rest);
      }
      assert ParseFrom(rest, index + 1) == Some(cues[1..]) by {
        forall k | 0 <= k < |cues| - 1 ensures '\n' !in cues[1..][k].text {
          assert cues[1..][k] == cues[k + 1];
        }
        ParseSerializeFrom(cues[1..], index + 1);
      }
      ParseFromStep(s, index, cues[0], rest, cues[1..]);
      ConsSplit(cues);
    }
  }

  /** Round trip: when no cue text contains a line break, reading the SRT document gives back
      exactly the cues, in order, with their times and texts. */
  lemma ParseSerialize(cues: seq<Cue>)
    requires forall k :: 0 <= k < |cues| ==> '\n' !in cues[k].text
    ensures ParseSrt(Serialize(cues)) == Some(cues)
  {
    ParseSerializeFrom(cues, 1);
  }

  /** No cues, no document; cues give a non-empty document. */
  lemma SerializeEmpty(cues: seq<Cue>)
    ensures Serialize(cues) == "" <==> |cues| == 0
  {
    if |cues| > 0 {
      assert Serialize(cues) == Block(1, cues[0]) + SerializeFrom(cues[1..], 2);
      assert |Block(1, cues[0])| > 0;
    }
  }
}

=== FILE: srt_time.dfy ===
/** SubRip timestamps: `secondsToSrtTime` (src/tasks/generateSRT.ts) on whole milliseconds,
    and a reader for the `HH:MM:SS,mmm` form it produces. */
module SrtTime {
  import opened Wrappers
  import opened Text
  import opened Decimal

  const MillisPerSecond: nat := 1000
  const MillisPerMinute: nat := 60000
  const MillisPerHour: nat := 3600000

  /** A whole number rendered in decimal and zero-padded to at least `width` digits. */
  function Field(n: nat, width: nat): (r: string)
    ensures AllDigits(r) && DigitsValue(r) == n
    ensures |r| == if |NatToString(n)| >= width then |NatToString(n)| else width
  {
    var digits := NatToString(n);
    var r := PadZeros(digits, width);
    assert r == r[..|r| - |digits|] + digits;
    LeadingZerosValue(r[..|r| - |digits|], digits);
    NatToStringRoundTrip(n);
    r
  }

  /** `t == q * d + r` with `0 <= r < d` pins down `t / d` and `t % d`. */
  lemma DivModUnique(t: nat, d: nat, q: nat, r: nat)
    requires d > 0 && r < d && t == q * d + r
    ensures t / d == q && t % d == r
  {
    MulGrows(t / d + 1, q, d);
    MulGrows(q + 1, t / d, d);
  }

  /** Multiplying by `d` keeps the order, with a gap of at least `d` for distinct factors. */
  lemma MulGrows(a: nat, b: nat, d: nat)
    ensures a <= b ==> a * d <= b * d
    ensures a * d + d == (a + 1) * d
  {
    if a <= b {
      assert b * d == a * d + (b - a) * d;
    }
  }

  /** The fields the source computes from whole seconds agree with the fields read off the
      millisecond count directly. */
  lemma {:induction false} TimeFields(t: nat)
    ensures (t / MillisPerSecond) / 3600 == t / MillisPerHour
    ensures ((t / MillisPerSecond) % 3600) / 60 == (t / MillisPerMinute) % 60
  {
    var s := t / 1000;
    var ms := t % 1000;
    var h := s / 3600;
    var rem := s % 3600;
    var m := rem / 60;
    var sec := rem % 60;
    assert s == h * 3600 + m * 60 + sec;
    assert t == h * 3600000 + m * 60000 + sec * 1000 + ms;
    DivModUnique(t, 3600000, h, m * 60000 + sec * 1000 + ms);
    DivModUnique(t, 60000, h * 60 + m, sec * 1000 + ms);
    DivModUnique(h * 60 + m, 60, h, m);
  }

  /** Hours, minutes, seconds and milliseconds add back up to `t`. */
  lemma {:induction false} TimeDecomposition(t: nat)
    ensures t == (t / MillisPerHour) * MillisPerHour + ((t / MillisPerMinute) % 60) * MillisPerMinute
                 + ((t / MillisPerSecond) % 60) * MillisPerSecond + t % MillisPerSecond
  {
    TimeFields(t);
    var s := t / 1000;
    var ms := t % 1000;
    var h := s / 3600;
    var rem := s % 3600;
    var m := rem / 60;
    var sec := rem % 60;
    assert s == h * 3600 + m * 60 + sec;
    assert t == h * 3600000 + m * 60000 + sec * 1000 + ms;
    DivModUnique(s, 60, h * 60 + m, sec);
  }

  /** The `HH:MM:SS,mmm` layout: where each field and separator sits, counted from the end. */
  function Layout(hh: string, mm: string, ss: string, mmm: string): (r: string)
    requires |mm| == 2 && |ss| == 2 && |mmm| == 3
    ensures |r| == |hh| + 10
    ensures r[|r| - 10] == ':' && r[|r| - 7] == ':' && r[|r| - 4] == ','
    ensures r[..|r| - 10] == hh && r[|r| - 9..|r| - 7] == mm
    ensures r[|r| - 6..|r| - 4] == ss && r[|r| - 3..] == mmm
  {
    hh + ":" + mm + ":" + ss + "," + mmm
  }

  /** `r` has the `H:MM:SS,mmm` shape and its four fields read as the given numbers. */
  predicate ShowsFields(r: string, hours: nat, mins: nat, secs: nat, millis: nat)
  {
    && |r| >= 12 && r[|r| - 10] == ':' && r[|r| - 7] == ':' && r[|r| - 4] == ','
    && AllDigits(r[..|r| - 10]) && DigitsValue(r[..|r| - 10]) == hours
    && AllDigits(r[|r| - 9..|r| - 7]) && DigitsValue(r[|r| - 9..|r| - 7]) == mins
    && AllDigits(r[|r| - 6..|r| - 4]) && DigitsValue(r[|r| - 6..|r| - 4]) == secs
    && AllDigits(r[|r| - 3..]) && DigitsValue(r[|r| - 3..]) == millis
  }

  /** Each field of a laid-out timestamp reads back as the digits it was built from. */
  lemma LayoutValues(hh: string, mm: string, ss: string, mmm: string)
    requires |hh| >= 2 && |mm| == 2 && |ss| == 2 && |mmm| == 3
    requires AllDigits(hh) && AllDigits(mm) && AllDigits(ss) && AllDigits(mmm)
    ensures ShowsFields(Layout(hh, mm, ss, mmm), DigitsValue(hh), DigitsValue(mm), DigitsValue(ss), DigitsValue(mmm))
  {
    var r := Layout(hh, mm, ss, mmm);
    SameValue(r[..|r| - 10], hh);
    SameValue(r[|r| - 9..|r| - 7], mm);
    SameValue(r[|r| - 6..|r| - 4], ss);
    SameValue(r[|r| - 3..], mmm);
  }

  lemma SameValue(a: string, b: string)
    requires a == b && AllDigits(b)
    ensures AllDigits(a) && DigitsValue(a) == DigitsValue(b)
  {
  }

  /** The four fields, zero-padded to 2, 2, 2 and 3 digits and laid out as `HH:MM:SS,mmm`. */
  function Render(hours: nat, mins: nat, secs: nat, millis: nat): (r: string)
    requires mins < 60 && secs < 60 && millis < 1000
    ensures ShowsFields(r, hours, mins, secs, millis)
    ensures |r| == 12 <==> hours < 100
    ensures hours >= 100 ==> |r| == |NatToString(hours)| + 10
  {
    HoursWidth(hours);
    NatToStringLength(mins);
    NatToStringLength(secs);
    NatToStringLength(millis);
    var hh := Field(hours, 2);
    var mm := Field(mins, 2);
    var ss := Field(secs, 2);
    var mmm := Field(millis, 3);
    assert |hh| == 2 <==> hours < 100;
    LayoutValues(hh, mm, ss, mmm);
    Layout(hh, mm, ss, mmm)
  }

  /** `secondsToSrtTime` for `t` milliseconds: hours, minutes and seconds from the whole
      seconds, milliseconds as the remainder. The hours part has at least two digits and is
      never cut short; each field holds what the millisecond count says it should. */
  function FormatTimestamp(t: nat): (r: string)
    ensures ShowsFields(r, t / MillisPerHour, (t / MillisPerMinute) % 60, (t / MillisPerSecond) % 60, t % MillisPerSecond)
    ensures |r| == 12 <==> t / MillisPerHour < 100
    ensures t / MillisPerHour >= 100 ==> |r| == |NatToString(t / MillisPerHour)| + 10
  {
    var seconds := t / MillisPerSecond;
    TimeFields(t);
    Render(seconds / 3600, (seconds % 3600) / 60, seconds % 60, t % MillisPerSecond)
  }

  /** An hour count takes more than two digits exactly when it is 100 or more. */
  lemma {:induction false} HoursWidth(h: nat)
    ensures |NatToString(h)| > 2 <==> h >= 100
  {
    if h >= 100 {
      var q := h / 10;
      assert q >= 10;
      assert |NatToString(h)| == |NatToString(q)| + 1;
      assert |NatToString(q)| == |NatToString(q / 10)| + 1;
    } else {
      NatToStringLength(h);
    }
  }

  /** Reads an `H:MM:SS,mmm` timestamp (at least two hour digits, minutes and seconds below 60)
      back into milliseconds; anything else is `None`. */
  function ParseTimestamp(s: string): (r: Option<nat>)
    ensures r.Some? ==> |s| >= 12 && s[|s| - 10] == ':' && s[|s| - 7] == ':' && s[|s| - 4] == ','
  {
    if |s| < 12 || s[|s| - 10] != ':' || s[|s| - 7] != ':' || s[|s| - 4] != ',' then None
    else
      var hh := s[..|s| - 10];
      var mm := s[|s| - 9..|s| - 7];
      var ss := s[|s| - 6..|s| - 4];
      var mmm := s[|s| - 3..];
      if !(AllDigits(hh) && AllDigits(mm) && AllDigits(ss) && AllDigits(mmm)) then None
      else if DigitsValue(mm) >= 60 || DigitsValue(ss) >= 60 then None
      else Some(DigitsValue(hh) * MillisPerHour + DigitsValue(mm) * MillisPerMinute
                + DigitsValue(ss) * MillisPerSecond + DigitsValue(mmm))
  }

  /** Reading a formatted timestamp gives back the millisecond count it was made from. */
  lemma TimestampRoundTrip(t: nat)
    ensures ParseTimestamp(FormatTimestamp(t)) == Some(t)
  {
    var h, m, s, ms := t / MillisPerHour, (t / MillisPerMinute) % 60, (t / MillisPerSecond) % 60, t % MillisPerSecond;
    TimeDecomposition(t);
    assert t == h * MillisPerHour + m * MillisPerMinute + s * MillisPerSecond + ms;
    var r := FormatTimestamp(t);
    assert ShowsFields(r, h, m, s, ms);
    ParseShown(r, h, m, s, ms, t);
  }

  /** Any string with the timestamp shape reads as the time its fields describe. */
  lemma ParseShown(r: string, hours: nat, mins: nat, secs: nat, millis: nat, total: nat)
    requires ShowsFields(r, hours, mins, secs, millis) && mins < 60 && secs < 60
    requires total == hours * MillisPerHour + mins * MillisPerMinute + secs * MillisPerSecond + millis
    ensures ParseTimestamp(r) == Some(total)
  {
  }

  /** Timestamps contain neither spaces nor line breaks, so they can be cut out of an SRT
      timing line. */
  lemma TimestampCharacters(t: nat)
    ensures ' ' !in FormatTimestamp(t) && '\n' !in FormatTimestamp(t)
  {
    var h, m, s, ms := t / MillisPerHour, (t / MillisPerMinute) % 60, (t / MillisPerSecond) % 60, t % MillisPerSecond;
    var r := FormatTimestamp(t);
    assert ShowsFields(r, h, m, s, ms);
    ShownCharacters(r, h, m, s, ms);
  }

  /** A string of timestamp shape holds only digits, colons and a comma. */
  lemma ShownCharacters(r: string, hours: nat, mins: nat, secs: nat, millis: nat)
    requires ShowsFields(r, hours, mins, secs, millis)
    ensures forall i :: 0 <= i < |r| ==> IsDigit(r[i]) || r[i] == ':' || r[i] == ','
    ensures ' ' !in r && '\n' !in r
  {
    forall i | 0 <= i < |r|
      ensures IsDigit(r[i]) || r[i] == ':' || r[i] == ','
    {
      if i < |r| - 10 {
        assert r[i] == r[..|r| - 10][i];
      } else if |r| - 9 <= i < |r| - 7 {
        assert r[i] == r[|r| - 9..|r| - 7][i - (|r| - 9)];
      } else if |r| - 6 <= i < |r| - 4 {
        assert r[i] == r[|r| - 6..|r| - 4][i - (|r| - 6)];
      } else if |r| - 3 <= i {
        assert r[i] == r[|r| - 3..][i - (|r| - 3)];
      }
    }
  }

  /** Two timestamps of the same length showing the same fields are the same string. */
  lemma ShownUnique(a: string, b: string, hours: nat, mins: nat, secs: nat, millis: nat)
    requires ShowsFields(a, hours, mins, secs, millis) && ShowsFields(b, hours, mins, secs, millis)
    requires |a| == |b|
    ensures a == b
  {
    var n := |a|;
    DigitsInjective(a[..n - 10], b[..n - 10]);
    DigitsInjective(a[n - 9..n - 7], b[n - 9..n - 7]);
    DigitsInjective(a[n - 6..n - 4], b[n - 6..n - 4]);
    DigitsInjective(a[n - 3..], b[n - 3..]);
    forall i | 0 <= i < n ensures a[i] == b[i] {
      if i < n - 10 {
        assert a[i] == a[..n - 10][i] && b[i] == b[..n - 10][i];
      } else if n - 9 <= i < n - 7 {
        assert a[i] == a[n - 9..n - 7][i - (n - 9)] && b[i] == b[n - 9..n - 7][i - (n - 9)];
      } else if n - 6 <= i < n - 4 {
        assert a[i] == a[n - 6..n - 4][i - (n - 6)] && b[i] == b[n - 6..n - 4][i - (n - 6)];
      } else if n - 3 <= i {
        assert a[i] == a[n - 3..][i - (n - 3)] && b[i] == b[n - 3..][i - (n - 3)];
      }
    }
  }

  /** A timestamp showing the fields of `t`, whose hours take two digits or, from 100 hours
      on, exactly as many as the number has, is the one `t` formats to. */
  lemma FormatShows(t: nat, r: string, hours: nat, mins: nat, secs: nat, millis: nat)
    requires mins < 60 && secs < 60 && millis < 1000
    requires t == hours * MillisPerHour + mins * MillisPerMinute + secs * MillisPerSecond + millis
    requires |r| == (if hours < 100 then 12 else |NatToString(hours)| + 10)
    requires ShowsFields(r, hours, mins, secs, millis)
    ensures FormatTimestamp(t) == r
  {
    var seconds := hours * 3600 + mins * 60 + secs;
    DivModUnique(t, MillisPerHour, hours, mins * MillisPerMinute + secs * MillisPerSecond + millis);
    DivModUnique(t, MillisPerMinute, hours * 60 + mins, secs * MillisPerSecond + millis);
    DivModUnique(hours * 60 + mins, 60, hours, mins);
    DivModUnique(t, MillisPerSecond, seconds, millis);
    DivModUnique(seconds, 60, hours * 60 + mins, secs);
    ShownUnique(FormatTimestamp(t), r, hours, mins, secs, millis);
  }

  /** `00:00:00,000` for zero. */
  lemma FormatZero()
    ensures FormatTimestamp(0) == "00:00:00,000"
  {
    var r := "00:00:00,000";
    assert r[..2] == "00" && r[3..5] == "00" && r[6..8] == "00" && r[9..] == "000";
    assert "000"[..2] == "00" && "00"[..1] == "0";
    FormatShows(0, r, 0, 0, 0, 0);
  }

  /** `01:01:01,250` for one hour, one minute and 1.25 seconds. */
  lemma FormatHourMinuteSecond()
    ensures FormatTimestamp(3661250) == "01:01:01,250"
  {
    var r := "01:01:01,250";
    assert r[..2] == "01" && r[3..5] == "01" && r[6..8] == "01" && r[9..] == "250";
    assert "01"[..1] == "0" && "250"[..2] == "25" && "25"[..1] == "2";
    FormatShows(3661250, r, 1, 1, 1, 250);
  }

  /** `00:00:59,999` one millisecond before a minute: the milliseconds are cut, never rounded
      up into the next second. */
  lemma FormatJustUnderMinute()
    ensures FormatTimestamp(59999) == "00:00:59,999"
  {
    var r := "00:00:59,999";
    assert r[..2] == "00" && r[3..5] == "00" && r[6..8] == "59" && r[9..] == "999";
    assert "00"[..1] == "0" && "59"[..1] == "5" && "999"[..2] == "99" && "99"[..1] == "9";
    FormatShows(59999, r, 0, 0, 59, 999);
  }

  /** `100:00:00,000` for a hundred hours: the hours field widens to three digits, with no
      padding in front. */
  lemma FormatHundredHours()
    ensures FormatTimestamp(360000000) == "100:00:00,000"
  {
    var r := Layout("100", "00", "00", "000");
    assert r == "100:00:00,000";
    assert NatToString(100) == "100" by {
      assert NatToString(1) == "1";
      assert NatToString(10) == NatToString(1) + [DigitChar(0)] == "10";
      assert NatToString(100) == NatToString(10) + [DigitChar(0)];
    }
    assert "100"[..2] == "10" && "10"[..1] == "1" && "000"[..2] == "00" && "00"[..1] == "0";
    FormatShows(360000000, r, 100, 0, 0, 0);
  }
}

=== FILE: text.dfy ===
/** The JavaScript string operations the core relies on: `endsWith`, `slice(-1)`,
    `Array.prototype.join`, `String.prototype.trim` and `padStart`. */
module Text {

  /** True iff `suffix` is a suffix of `s` (case-sensitive, as `String.prototype.endsWith`). */
  predicate EndsWith(s: string, suffix: string)
  {
    |suffix| <= |s| && s[|s| - |suffix|..] == suffix
  }

  /** `s.slice(-1)`: the last character as a string, or the empty string when `s` is empty. */
  function SliceLast(s: string): (r: string)
    ensures |s| == 0 ==> r == ""
    ensures |s| > 0 ==> |r| == 1 && r[0] == s[|s| - 1]
  {
    if |s| == 0 then "" else s[|s| - 1..]
  }

  /** The characters `String.prototype.trim` removes: ECMAScript WhiteSpace and LineTerminator. */
  predicate IsWhitespace(c: char)
  {
    || c == '\t' || c == '\n' || c == '\U{000B}' || c == '\U{000C}' || c == '\r' || c == ' '
    || c == '\U{00A0}' || c == '\U{1680}' || ('\U{2000}' <= c <= '\U{200A}')
    || c == '\U{2028}' || c == '\U{2029}' || c == '\U{202F}' || c == '\U{205F}'
    || c == '\U{3000}' || c == '\U{FEFF}'
  }

  /** `String.prototype.trim`: `s` without its leading and trailing whitespace. */
  function Trim(s: string): string
    decreases |s|
  {
    if |s| > 0 && IsWhitespace(s[0]) then Trim(s[1..])
    else if |s| > 0 && IsWhitespace(s[|s| - 1]) then Trim(s[..|s| - 1])
    else s
  }

  /** `Trim` cuts whitespace only: its result is the slice `s[a..b]`, and every character
      outside it is whitespace. */
  lemma {:induction false} TrimCuts(s: string) returns (a: nat, b: nat)
    ensures a <= b <= |s| && Trim(s) == s[a..b]
    ensures forall i :: 0 <= i < a ==> IsWhitespace(s[i])
    ensures forall i :: b <= i < |s| ==> IsWhitespace(s[i])
    decreases |s|
  {
    if |s| > 0 && IsWhitespace(s[0]) {
      var a', b' := TrimCuts(s[1..]);
      a, b := a' + 1, b' + 1;
      assert s[1..][a'..b'] == s[a..b];
      forall i | 0 <= i < a ensures IsWhitespace(s[i]) {
        if i > 0 { assert s[i] == s[1..][i - 1]; }
      }
      forall i | b <= i < |s| ensures IsWhitespace(s[i]) {
        assert s[i] == s[1..][i - 1];
      }
    } else if |s| > 0 && IsWhitespace(s[|s| - 1]) {
      var a', b' := TrimCuts(s[..|s| - 1]);
      a, b := a', b';
      assert s[..|s| - 1][a'..b'] == s[a..b];
      forall i | b <= i < |s| ensures IsWhitespace(s[i]) {
        if i < |s| - 1 { assert s[i] == s[..|s| - 1][i]; }
      }
    } else {
      a, b := 0, |s|;
    }
  }

  /** `Trim` leaves no whitespace at either end of its result. */
  lemma {:induction false} TrimEdges(s: string)
    ensures |Trim(s)| > 0 ==> !IsWhitespace(Trim(s)[0]) && !IsWhitespace(Trim(s)[|Trim(s)| - 1])
    decreases |s|
  {
    if |s| > 0 && IsWhitespace(s[0]) {
      TrimEdges(s[1..]);
    } else if |s| > 0 && IsWhitespace(s[|s| - 1]) {
      TrimEdges(s[..|s| - 1]);
    }
  }

  /** A string that does not start or end with whitespace is left unchanged by `Trim`. */
  lemma TrimNoEdgeWhitespace(s: string)
    requires |s| > 0 ==> !IsWhitespace(s[0]) && !IsWhitespace(s[|s| - 1])
    ensures Trim(s) == s
  {
  }

  /** Trimming twice is the same as trimming once. */
  lemma TrimIdempotent(s: string)
    ensures Trim(Trim(s)) == Trim(s)
  {
    TrimEdges(s);
    TrimNoEdgeWhitespace(Trim(s));
  }

  /** `xs.join(sep)`: the elements of `xs` separated by `sep`. */
  function Join(xs: seq<string>, sep: string): (r: string)
    ensures |xs| == 1 ==> r == xs[0]
    ensures |xs| > 0 ==> |r| >= |xs[0]|
  {
    if |xs| == 0 then ""
    else if |xs| == 1 then xs[0]
    else xs[0] + sep + Join(xs[1..], sep)
  }

  /** Joining the concatenation of two non-empty lists is joining each and gluing with `sep`. */
  lemma {:induction false} JoinAppend(xs: seq<string>, ys: seq<string>, sep: string)
    requires |xs| > 0 && |ys| > 0
    ensures Join(xs + ys, sep) == Join(xs, sep) + sep + Join(ys, sep)
  {
    if |xs| == 1 {
      assert (xs + ys)[1..] == ys;
    } else {
      assert (xs + ys)[1..] == xs[1..] + ys;
      JoinAppend(xs[1..], ys, sep);
    }
  }

  /** The joined string starts with the first element and ends with the last one. */
  lemma {:induction false} JoinEdges(xs: seq<string>, sep: string)
    requires |xs| > 0
    ensures Join(xs, sep)[..|xs[0]|] == xs[0]
    ensures |xs[|xs| - 1]| <= |Join(xs, sep)|
    ensures Join(xs, sep)[|Join(xs, sep)| - |xs[|xs| - 1]|..] == xs[|xs| - 1]
  {
    if |xs| > 1 {
      JoinEdges(xs[1..], sep);
      var j := Join(xs, sep);
      var t := Join(xs[1..], sep);
      assert j == xs[0] + sep + t;
      assert j[|j| - |xs[|xs| - 1]|..] == t[|t| - |xs[|xs| - 1]|..];
    }
  }

  /** A character occurs in a join only if it occurs in some element or in the separator. */
  lemma {:induction false} JoinChars(xs: seq<string>, sep: string, c: char)
    requires c !in sep
    requires forall k :: 0 <= k < |xs| ==> c !in xs[k]
    ensures c !in Join(xs, sep)
  {
    if |xs| > 1 {
      JoinChars(xs[1..], sep, c);
    }
  }

  /** `s.padStart(width, "0")`: `s` prefixed with just enough zeros to reach `width`; a
      string already at least `width` long is returned unchanged, never truncated. */
  function PadZeros(s: string, width: nat): (r: string)
    ensures |r| == if |s| >= width then |s| else width
    ensures r[|r| - |s|..] == s
    ensures forall i :: 0 <= i < |r| - |s| ==> r[i] == '0'
  {
    if |s| >= width then s else seq(width - |s|, _ => '0') + s
  }

  /** Index of the first occurrence of `c` in `s`, or `|s|` when there is none. */
  function FindChar(s: string, c: char): (i: nat)
    ensures i <= |s|
    ensures i < |s| ==> s[i] == c
    ensures forall j :: 0 <= j < i ==> s[j] != c
  {
    if |s| == 0 then 0
    else if s[0] == c then 0
    else 1 + FindChar(s[1..], c)
  }
}

=== FILE: wrappers.dfy ===
/** Failure-carrying datatypes shared by the segmenter and the orchestrator. */
module Wrappers {

  /** A value that may be absent: a missing JavaScript property or an `undefined` field. */
  datatype Option<+T> = None | Some(value: T)

  /** The outcome of an operation that either produces a value or fails with an error message,
      standing for a JavaScript function that returns or throws. */
  datatype Result<+R, +E> = Success(value: R) | Failure(error: E)
}
